=== FILE: README.md ===
# Sensors, fraud checks and risk bands, modelled in Dafny

This project models three sequential pieces of a Java exercise repository. It then proves what those pieces promise.

- **Environmental monitoring (observer pattern).** A `Sensor` keeps an ordered, duplicate-free registry of observers. `addObserver` and `removeObserver` edit that registry. `setValue` stores a reading, copies the registry, and calls `update` on every observer in the copy, in order. The loop catches `Exception` only. An `Exception` from one observer is reported and delivery goes on to the next. An `Error` is not caught: it ends the delivery after the observer that threw it and leaves `setValue`, with the value already stored. Three observers have behaviour of their own:
  - the control panel only prints;
  - the alert module compares the reading with a per-kind threshold. Temperature and pollution alert at or above the threshold, and humidity at or below it;
  - the history logger appends one entry per reading.
- **Anti-fraud chain of responsibility.** Five checks run over a `Transaction`. Each handler runs its check. It stops at the first rejection, and otherwise hands the transaction to the next handler. The end of the chain approves.
- **Risk analysis (strategy pattern).** `categorize` maps a score to "Baixo", "Moderado" or "Alto". `analyze` reports the current strategy's name, its score and that category.

Files:

| file | module | models |
|---|---|---|
| `wrappers.dfy` | `Wrappers` | `Option`, which stands in for Java's nullable references |
| `registry.dfy` | `Registry` | the observer list: add, remove, and the registry calls observers make |
| `alerts.dfy` | `Alerts` | `SensorType`, `AlertModule`: thresholds, `setThreshold`, the alert decision |
| `history.dfy` | `History` | `HistoryLogger`: the append-only log |
| `sensors.dfy` | `Sensors` | `Sensor`, the observers, `setValue` and snapshot notification |
| `antifraud.dfy` | `AntiFraud` | `Transaction`, `ValidationResult`, the five checks, `BaseHandler.handle` |
| `risk.dfy` | `Risk` | `Cliente`, `RiskStrategy`, `RiskAnalyzer`, `Result` |

Modelling choices:

- State is threaded explicitly through functions. `SetValue(sensor, v, observers)` returns a `Broadcast` with four parts: the new sensor, the new observer states, the list of deliveries it made, and whether an `Error` escaped.
- Observers are numbered ids, `nat`. A map from id to `Observer` holds their states.
- `Observer.Foreign(edits, fault)` stands for another `SensorObserver` implementation that keeps no state between calls. It records two things: the `addObserver`/`removeObserver` calls that observer makes on the notifying sensor during every `update`, and how `update` then ends (`Returns`, `ThrowsException` or `ThrowsError`). With it, the model can state what happens when an observer changes the registry mid-notification or fails.
- Java `double` values are Dafny `real`s.
- A handler chain is a non-empty sequence of checks, first handler first.
- A strategy is a name plus an opaque scoring function.

Two facts about the source shape the model:
- `HistoryLogger` has no accessor for its log, only `printHistory()` (Questao3/EnvironmentalMonitoring.java:150-157). The model exposes the log as the logger's `history` field.
- `setValue` stores `value` without synchronisation (Questao3/EnvironmentalMonitoring.java:54), and the loop re-reads it for each observer (Questao3/EnvironmentalMonitoring.java:66). The model re-reads it as well; with sequential calls, the re-read value is the one just stored.

## Model

| member | source | states |
|---|---|---|
| `Registry.Add` | Questao3/EnvironmentalMonitoring.java:39-43 | The observer is registered afterwards. The old registry is a prefix of the new one and it grows by at most one. Adding an observer that is already present changes nothing. Membership is the old registry plus the observer. A duplicate-free registry stays duplicate-free. |
| `Registry.AddAllRegistersOnce` | Questao3/EnvironmentalMonitoring.java:39-43 | However many adds are made, and however often one observer repeats among them, every added or previously registered observer occurs exactly once. Earlier observers keep their places at the front. |
| `Registry.Remove` | Questao3/EnvironmentalMonitoring.java:46-50 | Removing an absent observer is a no-op. Removing a present one shortens the list by one and keeps every other observer. On a duplicate-free registry the observer is gone completely, and the result equals the order-preserving filter `Without`, so the remaining observers keep their relative order. |
| `Registry.RemoveUndoesAdd` | Questao3/EnvironmentalMonitoring.java:39-50 | Adding an observer the registry lacks and then removing it gives back the original registry. |
| `Registry.CountDistinct` | Questao3/EnvironmentalMonitoring.java:41 | In a duplicate-free registry every observer occurs exactly once, or not at all. |
| `Registry.ApplyEdits` | Questao3/EnvironmentalMonitoring.java:39-50 | A run of add/remove calls keeps the registry duplicate-free. It brings in no observer other than one that some call subscribed. |
| `Alerts.NewAlertModule` | Questao3/EnvironmentalMonitoring.java:96-102 | A new module has a threshold for every kind: temperature 35, humidity 20, pollution 100. |
| `Alerts.SetThreshold` | Questao3/EnvironmentalMonitoring.java:104-106 | The given kind now maps to the given value. Every other kind's entry, present or absent, is unchanged. A complete table stays complete. |
| `Alerts.Decide` | Questao3/EnvironmentalMonitoring.java:109-125 | The decision reports the kind's threshold, or none. With no threshold there is no alert. Higher-is-worse kinds (temperature, pollution) alert iff value ≥ threshold. Humidity alerts iff value ≤ threshold. |
| `Alerts.ThresholdIsInclusive` | Questao3/EnvironmentalMonitoring.java:113-124 | A reading equal to the threshold alerts, for every kind. |
| `Alerts.AlertMonotone` | Questao3/EnvironmentalMonitoring.java:113-124 | A reading further in the alarming direction than one that alerted also alerts. |
| `Alerts.ConfigureKeepsUnnamed` | Questao3/EnvironmentalMonitoring.java:104-106 | A run of `setThreshold` calls leaves the threshold of every kind none of them names as it was, present or absent. |
| `Alerts.ConfigureLastSetWins` | Questao3/EnvironmentalMonitoring.java:104-106 | After a run of `setThreshold` calls, a kind that some call names has the value of the last call naming it. |
| `Alerts.ConfiguredModuleAlwaysJudges` | Questao3/EnvironmentalMonitoring.java:96-113 | Starting from a complete table, any run of `setThreshold` calls keeps a threshold for every kind. So for each of the three kinds, at every reading, the null-threshold branch is never taken. A kind that none of the calls names keeps its old threshold. |
| `Alerts.DemoDecisions` | Questao3/EnvironmentalMonitoring.java:173-202 | Scenario values from the demo. With the defaults, 28.5 °C and 45 % humidity do not alert, while 36.2 °C alerts against 35 and 18 % alerts against 20. With pollution set to 80, 60 does not alert and 120 alerts. |
| `History.NewHistoryLogger` | Questao3/EnvironmentalMonitoring.java:138-141 | A new logger has the given name and an empty log. |
| `History.Record` | Questao3/EnvironmentalMonitoring.java:144-146 | Exactly one entry is appended at the end. The earlier log is a prefix of the new one. |
| `History.RecordAllAppends` | Questao3/EnvironmentalMonitoring.java:144-146 | Recording a batch of entries one by one appends exactly that batch, in order. |
| `Sensors.NewSensor` | Questao3/EnvironmentalMonitoring.java:27-31 | A new sensor has the given id, region and kind. Its value is 0.0 and its registry is empty. |
| `Sensors.AddObserver` | Questao3/EnvironmentalMonitoring.java:39-43 | Only the registry changes, and it changes as `Registry.Add` says. Identity and value stay the same. |
| `Sensors.RemoveObserver` | Questao3/EnvironmentalMonitoring.java:46-50 | Only the registry changes, and it changes as `Registry.Remove` says. Identity and value stay the same. |
| `Sensors.Receive` | Questao3/EnvironmentalMonitoring.java:84-148 | One observer's `update`. An alert module reports `Decide` for the sensor's kind and the value. A logger's state becomes its log with one entry (id, value, region) recorded. Every other observer's state is unchanged, and no observer's registry behaviour or fault changes. Another observer's reaction records how its `update` ended. |
| `Sensors.Notify` | Questao3/EnvironmentalMonitoring.java:58-71 | Delivery `i` goes to snapshot member `i` and carries the sensor's value, whatever registry calls the observers make. There are at most as many deliveries as snapshot members, and exactly as many when no `Error` escaped. The sensor's identity and value do not change. The set of observers, their registry behaviour and their faults do not change. |
| `Sensors.NotifyEscapes` | Questao3/EnvironmentalMonitoring.java:64-69 | An `Error` escapes the loop iff some snapshot member throws one; an `Exception` never does. |
| `Sensors.NotifyErrorIsLast` | Questao3/EnvironmentalMonitoring.java:64-69 | When an `Error` escapes, the last delivery went to a member that throws one, and no earlier member throws one. So delivery stops right after the first such member. |
| `Sensors.NotifyStopsAtError` | Questao3/EnvironmentalMonitoring.java:64-69 | Both facts together, as the predicate `CutAtFirstError`. With no `Error`, every snapshot member was called. Otherwise the calls stop right after the first member that throws one. |
| `Sensors.NotifyRegistry` | Questao3/EnvironmentalMonitoring.java:58-71 | After notification, the registry is the registry before it with the called observers' registry calls applied in delivery order. The calls count up to and including those of the first observer that throws an `Error`. The snapshot being iterated is not affected by those calls. |
| `Sensors.NotifyPeers` | Questao3/EnvironmentalMonitoring.java:64-66 | With a duplicate-free snapshot, each observer that was called has taken exactly one `update` step, and every other observer is untouched. |
| `Sensors.NotifyReactions` | Questao3/EnvironmentalMonitoring.java:64-66 | With a duplicate-free snapshot, each delivery's reaction is what that observer, in its state before notification, does with the reading. |
| `Sensors.SetValue` | Questao3/EnvironmentalMonitoring.java:53-71 | Afterwards the value is `v`, whether or not an `Error` escaped. Delivery `i` goes to the observer in registry position `i` at the time of the call, and carries `v`; registry calls made during delivery do not change this. No `Error` escapes iff no registered observer throws one, and then every registered observer is reached. Otherwise delivery stops right after the first observer that throws one, and the `Error` escapes. The registry afterwards has the called observers' calls applied. No observer's registry calls or fault change. Duplicate-freedom and the closed-world invariant `Wired` are preserved. |
| `Sensors.SetValueObservers` | Questao3/EnvironmentalMonitoring.java:53-71 | Each observer that was called takes exactly one `update` step on the new reading. Every other observer is unchanged. Each delivery's reaction is its observer's response to the new reading. |
| `Sensors.SetValueRecipients` | Questao3/EnvironmentalMonitoring.java:58-69 | The observers `setValue` reached are a prefix of the registry at the time of the call. |
| `Sensors.SetValueOnlyRegistered` | Questao3/EnvironmentalMonitoring.java:58-66 | `setValue` calls only observers registered at the time of the call. |
| `Sensors.SetValueReachesAll` | Questao3/EnvironmentalMonitoring.java:58-69 | When no registered observer throws an `Error`, every registered observer receives the new value. |
| `Sensors.SetValueLogsOnce` | Questao3/EnvironmentalMonitoring.java:144-146 | A registered logger that was called gains exactly one entry from `setValue`: the sensor's id, the new value and its region. The entry goes after all earlier entries. A logger that was not called is unchanged. With no `Error` thrown, every registered logger is called. |
| `Sensors.DeliveredExactlyOnce` | Questao3/EnvironmentalMonitoring.java:58-71 | With a duplicate-free registry, every observer reached appears exactly once among the recipients, and no other observer appears. With no `Error` thrown, the observers reached are all the registered ones. |
| `Sensors.UnsubscribedObserverIsSkipped` | Questao3/EnvironmentalMonitoring.java:39-66 | After `addObserver(o)` then `removeObserver(o)`, a later `setValue` never reaches `o`. When no observer throws an `Error`, every other registered observer still receives the value. |
| `Sensors.Replay` | Questao3/EnvironmentalMonitoring.java:53-56 | A run of `setValue` calls keeps the sensor's identity, the set of observers and the `Wired` invariant. It produces one round of deliveries per call made, and one per value unless the run halted. Whether an observer throws an `Error` does not change during the run. When no observer throws an `Error`, the run does not halt, so every call is made. |
| `Sensors.ReplayHaltsAtError` | Questao3/EnvironmentalMonitoring.java:53-69 | A run that stops early was stopped by an `Error`: the last delivery of its last call went to an observer that throws one. |
| `Sensors.SteadyReplayState` | Questao3/EnvironmentalMonitoring.java:53-56 | When no registered observer makes registry calls or throws an `Error`, all N calls are made and leave the registry as it was. The sensor then holds the last value. |
| `Sensors.SteadyReplayRounds` | Questao3/EnvironmentalMonitoring.java:58-71 | When no registered observer makes registry calls or throws an `Error`, there is one round per call, and call `i` delivers `values[i]` to every registered observer, once each, in registry order. |
| `Sensors.SteadyReplayLog` | Questao3/EnvironmentalMonitoring.java:144-146 | When no registered observer makes registry calls or throws an `Error`, a registered logger ends with its old log followed by one entry per call, in call order. |
| `Sensors.LoneLoggerRecordsEveryReading` | Questao3/EnvironmentalMonitoring.java:136-148 | A new logger, the only observer of a new sensor, ends a run of `setValue` calls holding exactly one entry per value, in call order. |
| `Sensors.EntriesForThree` | Questao3/EnvironmentalMonitoring.java:144-146 | Three readings give three entries carrying the sensor's id and region, in the order the values were set. |
| `Sensors.HistoryOfThreeReadings` | Questao3/EnvironmentalMonitoring.java:136-148 | A logger on a temperature sensor set to three values in turn holds exactly those three entries, in that order. |
| `AntiFraud.Ok` | Questao4/AntiFraude.java:37 | `ok()` is an approval with the reason "Aprovado". |
| `AntiFraud.Fail` | Questao4/AntiFraude.java:38 | `fail(reason)` is a rejection carrying the given reason. |
| `AntiFraud.NewTransaction` | Questao4/AntiFraude.java:16-24 | The fields are stored as given, except that a null set of known devices becomes the empty set. |
| `AntiFraud.NewGeoLocationCheck` | Questao4/AntiFraude.java:89-91 | A null set of allowed countries becomes the empty set. |
| `AntiFraud.RunCheck` | Questao4/AntiFraude.java:76-134 | No check ever returns an approving result: it returns either null (pass) or a rejection. |
| `AntiFraud.AmountCheckRule` | Questao4/AntiFraude.java:77-82 | The amount check rejects iff amount > threshold, so an amount equal to the threshold passes. The rejection names the amount and the threshold. |
| `AntiFraud.GeoLocationRule` | Questao4/AntiFraude.java:89-99 | With a null or empty allowed set, every transaction passes. Otherwise the check rejects iff the country is not allowed. |
| `AntiFraud.UserHistoryRule` | Questao4/AntiFraude.java:105-110 | The history check rejects iff the user has past fraud, and gives that reason. |
| `AntiFraud.DeviceRule` | Questao4/AntiFraude.java:116-121 | The device check rejects iff a device id is present and unknown. With a null known-devices set, that means any present device id. A transaction without a device id passes. |
| `AntiFraud.BlacklistRule` | Questao4/AntiFraude.java:129-134 | A null blacklist never rejects. Otherwise the check rejects iff the country is blacklisted. |
| `AntiFraud.Handle` | Questao4/AntiFraude.java:58-67 | The chain approves iff every check passes, and the approval is `ok()` ("Aprovado"). Otherwise the result is the rejection of a check that every earlier check passed. |
| `AntiFraud.FirstRejectionWins` | Questao4/AntiFraude.java:58-67 | When all checks before position `i` pass and check `i` rejects, the chain answers with exactly check `i`'s rejection. |
| `AntiFraud.RejectionStopsTheChain` | Questao4/AntiFraude.java:59-63 | A handler whose check rejects returns that rejection, whatever follows it: `next` is never consulted. |
| `AntiFraud.HandleAppend` | Questao4/AntiFraude.java:53-67 | Linking chain `a` to chain `b` gives `a`'s rejection if `a` rejects, and otherwise `b`'s answer. |
| `AntiFraud.DemoApprovesOrdinaryTransaction` | Questao4/AntiFraude.java:140-157 | In the demo chain amount → location → blacklist → history → device, the first demo transaction is approved. |
| `AntiFraud.DemoStopsLargeAmount` | Questao4/AntiFraude.java:140-158 | The demo's 20000 transaction is stopped by the amount check. |
| `AntiFraud.DemoStopsUnusualLocation` | Questao4/AntiFraude.java:140-159 | The demo's "NG" transaction is stopped by the location check, before it reaches the blacklist. |
| `AntiFraud.DemoStopsUnknownDevice` | Questao4/AntiFraude.java:140-160 | The demo's "dev-new" transaction passes four checks and is stopped by the device check. |
| `AntiFraud.DemoStopsPastFraud` | Questao4/AntiFraude.java:140-161 | The demo's transaction from a user with past fraud is stopped by the history check. |
| `AntiFraud.DemoReorderedChain` | Questao4/AntiFraude.java:171-177 | In the rewired chain device → amount → location → history, the 15000 transaction is stopped by the amount check. |
| `Risk.NewCliente` | Questao2/Cliente.java:9-14 | The risk tolerance is clamped into [0, 100]. It is kept as given when already in range, and becomes 0 below the range and 100 above it. |
| `Risk.Categorize` | Questao2/RiskAnalyzer.java:20-24 | "Alto" iff score ≥ 66. "Moderado" iff 33 ≤ score < 66. "Baixo" iff score < 33. |
| `Risk.CategorizeMonotone` | Questao2/RiskAnalyzer.java:20-24 | A larger score never yields a lower band. |
| `Risk.CategorizeExactlyOne` | Questao2/RiskAnalyzer.java:20-24 | Every score gets one of the three names, and the three names are distinct. |
| `Risk.SetStrategy` | Questao2/RiskAnalyzer.java:10-12 | The analyzer now holds the given strategy. |
| `Risk.Analyze` | Questao2/RiskAnalyzer.java:14-18 | `modelo` is the strategy's name. `score` is the strategy's score, unchanged. `categoria` is the band of that score. For a strategy keeping its documented [0, 100] range (Questao2/RiskStrategy.java:5), the score lies in [0, 100]. |
| `Risk.AnalyzeUsesNewStrategy` | Questao2/RiskAnalyzer.java:10-18 | After `setStrategy(st)`, `analyze` depends only on `st`, not on the strategy it replaced. |

## Left out

- Thread safety: the `synchronized` blocks and the multi-thread guarantees are not modelled. Every operation runs sequentially, to completion.
- Output: console output, the `toString`/`%.1f`/`%.2f` formatting and the timestamps are left out. This covers all of `ControlPanel.update` and `printHistory`. A panel's delivery is recorded only as `Displayed`. An alert is a boolean plus the threshold used, and a log entry is (sensor id, value, region).
- Rejection reasons are a `Reason` datatype, not formatted strings. The Portuguese texts are noted beside each constructor, but the numbers in "Valor suspeito: %.2f > %.2f" are not rendered.
- Floating point: doubles are exact reals. NaN, infinities and rounding are not modelled. This includes NaN scores in `categorize`, NaN tolerance in the `Cliente` clamp, and NaN readings in the alert module.
- Sensors.Receive: an observer that calls `setValue` on the same sensor from inside `update` is not modelled. Because `value` is re-read for each observer, such a call would change the value later observers receive. A `Foreign` observer's registry calls are assumed to reach only the notifying sensor, and are applied once its `update` returns or throws.
- Observer identity: `equals`-based identity and null observers are not modelled. An observer is a distinct `nat` id, and every registered id must name an observer (`Attached`).
- Sensors.SetValueObservers: stated only for a duplicate-free registry, which is what `addObserver` maintains. With a repeated entry, which the API cannot create, an observer would be updated once per occurrence.
- Sensors.UnsubscribedObserverIsSkipped: the other observers are promised their delivery only when no registered observer throws an `Error`, because an `Error` ends the delivery early.
- Sensors.Replay: a `Foreign` observer behaves the same on every call. An observer whose registry calls or faults depend on its own history or on the value cannot be represented, for example one that unsubscribes only on its first call, or only above some value. A caller that catches an `Error` and goes on calling `setValue` is not modelled either.
- Alerts.SetThreshold: a null `SensorType` is not modelled. The `Sensor` constructor accepts one, and its alert decision would then take the no-threshold branch (Questao3/EnvironmentalMonitoring.java:110, :113). `setThreshold(null, v)` throws a `NullPointerException` from `EnumMap.put` (:105). In the model every sensor has one of the three kinds.
- A null `country` in `Transaction` is not modelled. Whether `contains(null)` returns false or throws depends on the `Set` implementation the caller passed.
- Mutable handler wiring: `setNext` can build cycles and can be rewired at run time. If every check on a cycle passes, `handle` recurses until the JVM throws a `StackOverflowError` out of it. A chain is modelled as a finite sequence.
- Risk.Analyze: a null strategy is not modelled. `new RiskAnalyzer(null)` or `setStrategy(null)` is accepted, and `analyze` then throws a `NullPointerException` at Questao2/RiskAnalyzer.java:15. In the model an analyzer always holds a strategy.
- Strategy formulas: the `ConservadorStrategy`, `ModeradoStrategy` and `AgressivoStrategy` formulas are floating-point arithmetic. A strategy is an opaque name plus scoring function, and the [0, 100] range is the predicate `Bounded`.
- The logging singleton (Questao5/AppLoggerSingleton.java) only demonstrates double-checked locking and printing, so it is not modelled.
- The report factory (Questao1/AppRelatorios.java) only prints and holds no state, so it is not modelled.
- The `main` demonstration drivers are not modelled as programs. Only some of their scenarios appear as concrete lemmas:
  - the six anti-fraud transactions (Questao4/AntiFraude.java:140-177) are the `AntiFraud.Demo…` lemmas;
  - the alert readings (Questao3/EnvironmentalMonitoring.java:173, :190-202) are `Alerts.DemoDecisions`;
  - adding a second panel, then removing the first one, with a `setValue` after each step (Questao3/EnvironmentalMonitoring.java:204-213), has no concrete lemma. It is covered in general form by `Sensors.UnsubscribedObserverIsSkipped`, `Sensors.SetValueOnlyRegistered` and `Registry.Remove`;
  - the shared logger's eight-entry history across three sensors (Questao3/EnvironmentalMonitoring.java:190-217) has no concrete lemma;
  - the risk demonstration (Questao2/AppRiscoInvestimento.java) is not modelled, because its scores come from the strategy formulas, which are left out.

=== FILE: alerts.dfy ===
/**
 * The threshold-based alerting observer (EnvironmentalMonitoring.AlertModule):
 * a per-kind threshold table with defaults, its configuration call, and the
 * alert decision it takes for each reading.
 */
module Alerts {
  import opened Wrappers

  /** The closed set of measurement kinds a sensor can have. */
  datatype SensorType = Temperature | Humidity | Pollution

  /** Kinds for which a reading at or above the threshold is the alarming direction. */
  predicate HigherIsWorse(kind: SensorType) {
    kind != Humidity
  }

  type Thresholds = map<SensorType, real>

  datatype AlertModule = AlertModule(name: string, thresholds: Thresholds)

  /** The threshold table's entry for `kind`, if there is one (`Map.get`). */
  function Lookup(t: Thresholds, kind: SensorType): Option<real> {
    if kind in t then Some(t[kind]) else None
  }

  /** Every kind has a threshold. */
  predicate Configured(t: Thresholds) {
    Temperature in t && Humidity in t && Pollution in t
  }

  /** A new module: 35 for temperature, 20 for humidity, 100 for pollution. */
  function NewAlertModule(name: string): (m: AlertModule)
    ensures m.name == name
    ensures Configured(m.thresholds)
    ensures Lookup(m.thresholds, Temperature) == Some(35.0)
    ensures Lookup(m.thresholds, Humidity) == Some(20.0)
    ensures Lookup(m.thresholds, Pollution) == Some(100.0)
  {
    AlertModule(name, map[Temperature := 35.0, Humidity := 20.0, Pollution := 100.0])
  }

  /** `setThreshold`: overwrite the entry of one kind and no other. */
  function SetThreshold(m: AlertModule, kind: SensorType, value: real): (r: AlertModule)
    ensures r.name == m.name
    ensures Lookup(r.thresholds, kind) == Some(value)
    ensures forall other :: other != kind ==> Lookup(r.thresholds, other) == Lookup(m.thresholds, other)
    ensures Configured(m.thresholds) ==> Configured(r.thresholds)
  {
    m.(thresholds := m.thresholds[kind := value])
  }

  /** Whether a reading raised an alert, and the threshold it was judged against. */
  datatype Decision = Decision(alert: bool, threshold: Option<real>)

  /**
   * The decision `update` takes for a reading of a sensor of kind `kind`:
   * no threshold means no alert; temperature and pollution alert at or above
   * the threshold, humidity at or below it.
   */
  function Decide(m: AlertModule, kind: SensorType, value: real): (d: Decision)
    ensures d.threshold == Lookup(m.thresholds, kind)
    ensures d.alert <==>
      (d.threshold.Some? && if HigherIsWorse(kind) then value >= d.threshold.value else value <= d.threshold.value)
  {
    match Lookup(m.thresholds, kind)
    case None => Decision(false, None)
    case Some(t) =>
      match kind
      case Temperature => Decision(value >= t, Some(t))
      case Humidity => Decision(value <= t, Some(t))
      case Pollution => Decision(value >= t, Some(t))
  }

  /** A reading exactly at the threshold alerts, whatever the kind. */
  lemma ThresholdIsInclusive(m: AlertModule, kind: SensorType)
    requires kind in m.thresholds
    ensures Decide(m, kind, m.thresholds[kind]).alert
  {
  }

  /**
   * Alerting is monotone: a reading further in the alarming direction than one
   * that alerted also alerts.
   */
  lemma AlertMonotone(m: AlertModule, kind: SensorType, v: real, w: real)
    requires Decide(m, kind, v).alert
    requires if HigherIsWorse(kind) then v <= w else w <= v
    ensures Decide(m, kind, w).alert
  {
  }

  /** A sequence of `setThreshold` calls, performed left to right. */
  function Configure(m: AlertModule, updates: seq<(SensorType, real)>): AlertModule
    decreases |updates|
  {
    if updates == [] then m else Configure(SetThreshold(m, updates[0].0, updates[0].1), updates[1..])
  }

  /** A kind no update names keeps the threshold it had. */
  lemma {:induction false} ConfigureKeepsUnnamed(m: AlertModule, updates: seq<(SensorType, real)>, kind: SensorType)
    requires forall i :: 0 <= i < |updates| ==> updates[i].0 != kind
    ensures Lookup(Configure(m, updates).thresholds, kind) == Lookup(m.thresholds, kind)
    decreases |updates|
  {
    if updates != [] {
      assert forall i :: 0 <= i < |updates[1..]| ==> updates[1..][i].0 != kind by {
        forall i | 0 <= i < |updates[1..]| ensures updates[1..][i].0 != kind {
          assert updates[1..][i] == updates[i + 1];
        }
      }
      ConfigureKeepsUnnamed(SetThreshold(m, updates[0].0, updates[0].1), updates[1..], kind);
    }
  }

  /** Each kind's threshold is the value of the last update that names it: `put` replaces. */
  lemma {:induction false} ConfigureLastSetWins(m: AlertModule, updates: seq<(SensorType, real)>, kind: SensorType, i: nat)
    requires i < |updates| && updates[i].0 == kind
    requires forall j :: i < j < |updates| ==> updates[j].0 != kind
    ensures Lookup(Configure(m, updates).thresholds, kind) == Some(updates[i].1)
    decreases |updates|
  {
    var m' := SetThreshold(m, updates[0].0, updates[0].1);
    if i == 0 {
      assert forall j :: 0 <= j < |updates[1..]| ==> updates[1..][j].0 != kind by {
        forall j | 0 <= j < |updates[1..]| ensures updates[1..][j].0 != kind {
          assert updates[1..][j] == updates[j + 1];
        }
      }
      ConfigureKeepsUnnamed(m', updates[1..], kind);
    } else {
      assert updates[1..][i - 1] == updates[i];
      assert forall j :: i - 1 < j < |updates[1..]| ==> updates[1..][j].0 != kind by {
        forall j | i - 1 < j < |updates[1..]| ensures updates[1..][j].0 != kind {
          assert updates[1..][j] == updates[j + 1];
        }
      }
      ConfigureLastSetWins(m', updates[1..], kind, i - 1);
    }
  }

  /**
   * A module built by the constructor keeps a threshold for every kind however
   * it is reconfigured, so for each of the three kinds its "no threshold"
   * branch is never taken; a kind no update names keeps its threshold.
   */
  lemma {:induction false} ConfiguredModuleAlwaysJudges(m: AlertModule, updates: seq<(SensorType, real)>, kind: SensorType)
    requires Configured(m.thresholds)
    ensures Configured(Configure(m, updates).thresholds)
    ensures Decide(Configure(m, updates), kind, 0.0).threshold.Some?
    ensures Lookup(Configure(m, updates).thresholds, kind).Some?
    ensures forall v :: Decide(Configure(m, updates), kind, v).threshold.Some?
    ensures (forall i :: 0 <= i < |updates| ==> updates[i].0 != kind) ==>
      Lookup(Configure(m, updates).thresholds, kind) == Lookup(m.thresholds, kind)
    decreases |updates|
  {
    if updates != [] {
      ConfiguredModuleAlwaysJudges(SetThreshold(m, updates[0].0, updates[0].1), updates[1..], kind);
    }
    if forall i :: 0 <= i < |updates| ==> updates[i].0 != kind {
      ConfigureKeepsUnnamed(m, updates, kind);
    }
  }

  /**
   * The readings of the demonstration: with the defaults, 28.5 degrees and 45%
   * humidity pass while 36.2 degrees and 18% humidity alert; with pollution
   * lowered to 80, 60 passes and 120 alerts.
   */
  lemma DemoDecisions()
    ensures !Decide(NewAlertModule("Central"), Temperature, 28.5).alert
    ensures Decide(NewAlertModule("Central"), Temperature, 36.2) == Decision(true, Some(35.0))
    ensures !Decide(NewAlertModule("Central"), Humidity, 45.0).alert
    ensures Decide(NewAlertModule("Central"), Humidity, 18.0) == Decision(true, Some(20.0))
    ensures !Decide(SetThreshold(NewAlertModule("Central"), Pollution, 80.0), Pollution, 60.0).alert
    ensures Decide(SetThreshold(NewAlertModule("Central"), Pollution, 80.0), Pollution, 120.0) == Decision(true, Some(80.0))
  {
  }
}

=== FILE: antifraud.dfy ===
/**
 * The anti-fraud chain of responsibility (AntiFraude): a transaction, the
 * five checks, and a chain of handlers that stops at the first check that
 * rejects and approves when the end of the chain is reached.
 *
 * The chain is a non-empty sequence of checks, first handler first; a
 * handler's `next` is the check after it.
 */
module AntiFraud {
  import opened Wrappers

  datatype Transaction = Transaction(
    amount: real,
    country: string,
    userId: string,
    deviceId: Option<string>,
    hasPastFraud: bool,
    knownDevices: set<string>)

  /** The constructor: a null set of known devices becomes the empty set. */
  function NewTransaction(amount: real, country: string, userId: string, deviceId: Option<string>,
                          hasPastFraud: bool, knownDevices: Option<set<string>>): (tx: Transaction)
    ensures tx.amount == amount && tx.country == country && tx.userId == userId
    ensures tx.deviceId == deviceId && tx.hasPastFraud == hasPastFraud
    ensures knownDevices.None? ==> tx.knownDevices == {}
    ensures knownDevices.Some? ==> tx.knownDevices == knownDevices.value
  {
    Transaction(amount, country, userId, deviceId, hasPastFraud,
                if knownDevices.Some? then knownDevices.value else {})
  }

  /** Why a transaction was let through or stopped (the text of `reason`). */
  datatype Reason =
    | Approved                                          // "Aprovado"
    | SuspiciousAmount(amount: real, threshold: real)   // "Valor suspeito: amount > threshold"
    | UnusualLocation(country: string)                  // "Localização incomum: country"
    | FraudHistory                                      // "Usuário com histórico de fraude"
    | UnusualDevice(deviceId: string)                   // "Dispositivo incomum: deviceId"
    | BlacklistedCountry(country: string)               // "País na lista negra: country"

  datatype ValidationResult = ValidationResult(approved: bool, reason: Reason)

  /** `ValidationResult.ok()`. */
  function Ok(): (r: ValidationResult)
    ensures r.approved && r.reason == Approved
  {
    ValidationResult(true, Approved)
  }

  /** `ValidationResult.fail(reason)`. */
  function Fail(reason: Reason): (r: ValidationResult)
    ensures !r.approved && r.reason == reason
  {
    ValidationResult(false, reason)
  }

  /** The five checks, with the configuration each constructor stores. */
  datatype Check =
    | AmountCheck(threshold: real)
    | GeoLocationCheck(allowedCountries: set<string>)
    | UserHistoryCheck
    | DeviceCheck
    | BlacklistCountryCheck(blacklisted: Option<set<string>>)

  /** The `GeoLocationCheck` constructor: a null set of allowed countries becomes empty. */
  function NewGeoLocationCheck(allowedCountries: Option<set<string>>): (c: Check)
    ensures c.GeoLocationCheck?
    ensures allowedCountries.None? ==> c.allowedCountries == {}
    ensures allowedCountries.Some? ==> c.allowedCountries == allowedCountries.value
  {
    GeoLocationCheck(if allowedCountries.Some? then allowedCountries.value else {})
  }

  /**
   * `check`: `None` (Java's null) when the transaction passes, a rejection
   * otherwise. No check ever returns an approving result.
   */
  function RunCheck(c: Check, tx: Transaction): (r: Option<ValidationResult>)
    ensures r.Some? ==> !r.value.approved
  {
    match c
    case AmountCheck(threshold) =>
      if tx.amount > threshold then Some(Fail(SuspiciousAmount(tx.amount, threshold))) else None
    case GeoLocationCheck(allowed) =>
      if allowed != {} && tx.country !in allowed then Some(Fail(UnusualLocation(tx.country))) else None
    case UserHistoryCheck =>
      if tx.hasPastFraud then Some(Fail(FraudHistory)) else None
    case DeviceCheck =>
      if tx.deviceId.Some? && tx.deviceId.value !in tx.knownDevices
      then Some(Fail(UnusualDevice(tx.deviceId.value))) else None
    case BlacklistCountryCheck(blacklisted) =>
      if blacklisted.Some? && tx.country in blacklisted.value
      then Some(Fail(BlacklistedCountry(tx.country))) else None
  }

  /** How `handle` reads a check's answer: null or an approving result lets the transaction on. */
  predicate Passes(c: Check, tx: Transaction) {
    var res := RunCheck(c, tx);
    res.None? || res.value.approved
  }

  /** The amount check rejects exactly the amounts strictly above its threshold. */
  lemma AmountCheckRule(threshold: real, tx: Transaction)
    ensures !Passes(AmountCheck(threshold), tx) <==> tx.amount > threshold
    ensures tx.amount == threshold ==> Passes(AmountCheck(threshold), tx)
    ensures !Passes(AmountCheck(threshold), tx) ==>
      RunCheck(AmountCheck(threshold), tx) == Some(Fail(SuspiciousAmount(tx.amount, threshold)))
  {
  }

  /**
   * The location check passes everything when built with no allowed countries
   * (null or empty); otherwise it rejects exactly the countries not allowed.
   */
  lemma GeoLocationRule(allowed: Option<set<string>>, tx: Transaction)
    ensures allowed.None? ==> Passes(NewGeoLocationCheck(allowed), tx)
    ensures allowed.Some? && allowed.value == {} ==> Passes(NewGeoLocationCheck(allowed), tx)
    ensures allowed.Some? && allowed.value != {} ==>
      (!Passes(NewGeoLocationCheck(allowed), tx) <==> tx.country !in allowed.value)
  {
  }

  /** The history check rejects exactly the users with past fraud. */
  lemma UserHistoryRule(tx: Transaction)
    ensures !Passes(UserHistoryCheck, tx) <==> tx.hasPastFraud
    ensures !Passes(UserHistoryCheck, tx) ==> RunCheck(UserHistoryCheck, tx) == Some(Fail(FraudHistory))
  {
  }

  /**
   * The device check rejects exactly a present device id that is not known;
   * for a transaction built with a null set of known devices that means
   * every present device id.
   */
  lemma DeviceRule(amount: real, country: string, userId: string, deviceId: Option<string>,
                   hasPastFraud: bool, known: Option<set<string>>)
    ensures var tx := NewTransaction(amount, country, userId, deviceId, hasPastFraud, known);
      !Passes(DeviceCheck, tx) <==> deviceId.Some? && deviceId.value !in tx.knownDevices
    ensures known.None? ==>
      (!Passes(DeviceCheck, NewTransaction(amount, country, userId, deviceId, hasPastFraud, known)) <==> deviceId.Some?)
    ensures deviceId.None? ==> Passes(DeviceCheck, NewTransaction(amount, country, userId, deviceId, hasPastFraud, known))
  {
  }

  /** The blacklist check rejects exactly the blacklisted countries; a null blacklist rejects nothing. */
  lemma BlacklistRule(blacklisted: Option<set<string>>, tx: Transaction)
    ensures blacklisted.None? ==> Passes(BlacklistCountryCheck(blacklisted), tx)
    ensures blacklisted.Some? ==>
      (!Passes(BlacklistCountryCheck(blacklisted), tx) <==> tx.country in blacklisted.value)
  {
  }

  /** Every check of `chain` lets `tx` through. */
  predicate AllPass(chain: seq<Check>, tx: Transaction) {
    forall i :: 0 <= i < |chain| ==> Passes(chain[i], tx)
  }

  /**
   * `handle` on the first handler of `chain`: run its check; stop with the
   * check's result when it rejects, otherwise hand over to the next handler,
   * or approve when there is none.
   *
   * The result approves iff every check passes, and otherwise is the
   * rejection of the first check, in chain order, that does not pass.
   */
  function Handle(chain: seq<Check>, tx: Transaction): (r: ValidationResult)
    requires |chain| > 0
    ensures r.approved <==> AllPass(chain, tx)
    ensures r.approved ==> r == Ok()
    ensures !r.approved ==> exists i :: 0 <= i < |chain| && AllPass(chain[..i], tx) && RunCheck(chain[i], tx) == Some(r)
    decreases |chain|
  {
    var res := RunCheck(chain[0], tx);
    if res.Some? && !res.value.approved then
      res.value
    else if |chain| > 1 then
      var r := Handle(chain[1..], tx);
      assert r.approved <==> AllPass(chain, tx) by {
        if AllPass(chain[1..], tx) {
          forall i | 0 <= i < |chain| ensures Passes(chain[i], tx) {
            if i > 0 { assert chain[i] == chain[1..][i - 1]; }
          }
        } else {
          var i :| 0 <= i < |chain[1..]| && !Passes(chain[1..][i], tx);
          assert chain[i + 1] == chain[1..][i];
        }
      }
      assert !r.approved ==> exists i :: 0 <= i < |chain| && AllPass(chain[..i], tx) && RunCheck(chain[i], tx) == Some(r) by {
        if !r.approved {
          var i :| 0 <= i < |chain[1..]| && AllPass(chain[1..][..i], tx) && RunCheck(chain[1..][i], tx) == Some(r);
          assert chain[i + 1] == chain[1..][i];
          var prefix := chain[..i + 1];
          assert AllPass(prefix, tx) by {
            forall j | 0 <= j < |prefix| ensures Passes(prefix[j], tx) {
              if j > 0 { assert prefix[j] == chain[1..][..i][j - 1]; }
            }
          }
        }
      }
      r
    else
      Ok()
  }

  /**
   * A handler whose check rejects answers with that rejection whatever
   * follows it: `next` is never consulted.
   */
  lemma {:induction false} RejectionStopsTheChain(c: Check, rest1: seq<Check>, rest2: seq<Check>, tx: Transaction)
    requires !Passes(c, tx)
    ensures Handle([c] + rest1, tx) == Handle([c] + rest2, tx) == RunCheck(c, tx).value
  {
    assert ([c] + rest1)[0] == c && ([c] + rest2)[0] == c;
  }

  /**
   * Linking chain `a` to chain `b` (`setNext` from the last handler of `a` to
   * the first of `b`): the result is `a`'s rejection if `a` rejects, and
   * otherwise whatever `b` answers.
   */
  lemma {:induction false} HandleAppend(a: seq<Check>, b: seq<Check>, tx: Transaction)
    requires |a| > 0 && |b| > 0
    ensures Handle(a + b, tx) == if Handle(a, tx).approved then Handle(b, tx) else Handle(a, tx)
    decreases |a|
  {
    assert (a + b)[0] == a[0];
    if Passes(a[0], tx) && |a| > 1 {
      assert (a + b)[1..] == a[1..] + b;
      HandleAppend(a[1..], b, tx);
    } else if Passes(a[0], tx) {
      assert (a + b)[1..] == b;
    }
  }

  /**
   * The first rejecting check decides: when every check before position `i`
   * passes and check `i` rejects, the chain answers with check `i`'s rejection.
   */
  lemma FirstRejectionWins(chain: seq<Check>, tx: Transaction, i: nat)
    requires i < |chain| && AllPass(chain[..i], tx) && !Passes(chain[i], tx)
    ensures Handle(chain, tx) == RunCheck(chain[i], tx).value
  {
    var r := Handle(chain, tx);
    assert !r.approved;
    var j :| 0 <= j < |chain| && AllPass(chain[..j], tx) && RunCheck(chain[j], tx) == Some(r);
    AllPassPrefix(chain, i, tx);
    AllPassPrefix(chain, j, tx);
  }

  lemma AllPassPrefix(chain: seq<Check>, n: nat, tx: Transaction)
    requires n <= |chain| && AllPass(chain[..n], tx)
    ensures forall k :: 0 <= k < n ==> Passes(chain[k], tx)
  {
    forall k | 0 <= k < n ensures Passes(chain[k], tx) {
      assert chain[..n][k] == chain[k];
    }
  }

  /** The chain the demonstration builds first: amount, location, blacklist, history, device. */
  function DemoChain(): seq<Check> {
    [AmountCheck(10000.0), NewGeoLocationCheck(Some({"BR", "US", "PT"})),
     BlacklistCountryCheck(Some({"NG", "IR"})), UserHistoryCheck, DeviceCheck]
  }

  /** The demonstration's first transaction passes every check of the first chain. */
  lemma DemoApprovesOrdinaryTransaction()
    ensures Handle(DemoChain(), NewTransaction(50.0, "BR", "user1", Some("dev-1"), false, Some({"dev-1"}))) == Ok()
  {
    var chain := DemoChain();
    var tx := NewTransaction(50.0, "BR", "user1", Some("dev-1"), false, Some({"dev-1"}));
    assert Passes(chain[0], tx) && Passes(chain[1], tx) && Passes(chain[2], tx);
    assert Passes(chain[3], tx) && Passes(chain[4], tx);
  }

  /** The demonstration's second transaction is stopped by the amount check. */
  lemma DemoStopsLargeAmount()
    ensures Handle(DemoChain(), NewTransaction(20000.0, "BR", "user2", Some("dev-2"), false, Some({"dev-2"})))
            == Fail(SuspiciousAmount(20000.0, 10000.0))
  {
    FirstRejectionWins(DemoChain(), NewTransaction(20000.0, "BR", "user2", Some("dev-2"), false, Some({"dev-2"})), 0);
  }

  /** The demonstration's third transaction is stopped by the location check, before the blacklist. */
  lemma DemoStopsUnusualLocation()
    ensures Handle(DemoChain(), NewTransaction(100.0, "NG", "user3", Some("dev-3"), false, Some({"dev-3"})))
            == Fail(UnusualLocation("NG"))
  {
    var chain := DemoChain();
    assert chain[..1] == [chain[0]];
    FirstRejectionWins(chain, NewTransaction(100.0, "NG", "user3", Some("dev-3"), false, Some({"dev-3"})), 1);
  }

  /** The demonstration's fourth transaction is stopped by the device check at the end. */
  lemma DemoStopsUnknownDevice()
    ensures Handle(DemoChain(), NewTransaction(20.0, "US", "user4", Some("dev-new"), false, Some({"dev-old"})))
            == Fail(UnusualDevice("dev-new"))
  {
    var chain := DemoChain();
    var tx := NewTransaction(20.0, "US", "user4", Some("dev-new"), false, Some({"dev-old"}));
    assert chain[..4] == [chain[0], chain[1], chain[2], chain[3]];
    assert Passes(chain[0], tx) && Passes(chain[1], tx) && Passes(chain[2], tx) && Passes(chain[3], tx);
    FirstRejectionWins(chain, tx, 4);
  }

  /** The demonstration's fifth transaction is stopped by the history check. */
  lemma DemoStopsPastFraud()
    ensures Handle(DemoChain(), NewTransaction(10.0, "PT", "user5", Some("dev-a"), true, Some({"dev-a"})))
            == Fail(FraudHistory)
  {
    var chain := DemoChain();
    var tx := NewTransaction(10.0, "PT", "user5", Some("dev-a"), true, Some({"dev-a"}));
    assert chain[..3] == [chain[0], chain[1], chain[2]];
    assert Passes(chain[0], tx) && Passes(chain[1], tx) && Passes(chain[2], tx);
    FirstRejectionWins(chain, tx, 3);
  }

  /** The reordered chain device, amount, location, history stops a 15000 transaction at the amount check. */
  lemma DemoReorderedChain()
    ensures Handle([DeviceCheck, AmountCheck(10000.0), NewGeoLocationCheck(Some({"BR", "US", "PT"})), UserHistoryCheck],
                   NewTransaction(15000.0, "BR", "user6", Some("dev-x"), false, Some({"dev-x"})))
            == Fail(SuspiciousAmount(15000.0, 10000.0))
  {
    var chain := [DeviceCheck, AmountCheck(10000.0), NewGeoLocationCheck(Some({"BR", "US", "PT"})), UserHistoryCheck];
    var tx := NewTransaction(15000.0, "BR", "user6", Some("dev-x"), false, Some({"dev-x"}));
    assert chain[..1] == [DeviceCheck];
    FirstRejectionWins(chain, tx, 1);
  }
}

=== FILE: history.dfy ===
/**
 * The history observer (EnvironmentalMonitoring.HistoryLogger): an
 * append-only log of the readings it has been notified of.
 */
module History {

  /** One logged reading: which sensor, the value, and the sensor's region. */
  datatype Entry = Entry(sensorId: string, value: real, region: string)

  datatype HistoryLogger = HistoryLogger(name: string, history: seq<Entry>)

  function NewHistoryLogger(name: string): (l: HistoryLogger)
    ensures l.name == name && |l.history| == 0
  {
    HistoryLogger(name, [])
  }

  /** `update`: append exactly one entry at the end; earlier entries are untouched. */
  function Record(l: HistoryLogger, e: Entry): (r: HistoryLogger)
    ensures r.name == l.name
    ensures |r.history| == |l.history| + 1
    ensures l.history <= r.history
    ensures r.history[|l.history|] == e
  {
    l.(history := l.history + [e])
  }

  /** Recording entries one after another. */
  function RecordAll(l: HistoryLogger, es: seq<Entry>): HistoryLogger
    decreases |es|
  {
    if es == [] then l else RecordAll(Record(l, es[0]), es[1..])
  }

  /** Recording a batch of entries appends exactly that batch, in order. */
  lemma {:induction false} RecordAllAppends(l: HistoryLogger, es: seq<Entry>)
    ensures RecordAll(l, es) == l.(history := l.history + es)
    decreases |es|
  {
    if es != [] {
      RecordAllAppends(Record(l, es[0]), es[1..]);
      assert l.history + [es[0]] + es[1..] == l.history + es by {
        assert [es[0]] + es[1..] == es;
      }
    }
  }
}

=== FILE: registry.dfy ===
/**
 * The observer registry of a sensor (EnvironmentalMonitoring.Sensor.observers):
 * an ordered list of distinct observers, with the add, remove and
 * registry-edit operations a sensor and its observers perform on it.
 */
module Registry {

  /** Observers are compared by identity; an id stands for one observer object. */
  type ObserverId = nat

  /** No observer occurs twice. */
  predicate NoDup(s: seq<ObserverId>) {
    forall i, j :: 0 <= i < j < |s| ==> s[i] != s[j]
  }

  /** Number of occurrences of `x` in `s`. */
  function Count(s: seq<ObserverId>, x: ObserverId): nat {
    if s == [] then 0 else (if s[0] == x then 1 else 0) + Count(s[1..], x)
  }

  /** In a duplicate-free registry every observer occurs once or not at all. */
  lemma {:induction false} CountDistinct(s: seq<ObserverId>, x: ObserverId)
    requires NoDup(s)
    ensures Count(s, x) == (if x in s then 1 else 0)
  {
    if s != [] {
      assert NoDup(s[1..]) by {
        forall i, j | 0 <= i < j < |s[1..]| ensures s[1..][i] != s[1..][j] {
          assert s[1..][i] == s[i + 1] && s[1..][j] == s[j + 1];
        }
      }
      CountDistinct(s[1..], x);
      if s[0] == x {
        assert x !in s[1..] by {
          forall k | 0 <= k < |s[1..]| ensures s[1..][k] != x {
            assert s[1..][k] == s[k + 1];
          }
        }
      } else {
        assert x in s <==> x in s[1..] by {
          assert s == [s[0]] + s[1..];
        }
      }
    }
  }

  /** `addObserver`: register `o` unless it is already registered. */
  function Add(reg: seq<ObserverId>, o: ObserverId): (r: seq<ObserverId>)
    ensures o in r
    ensures reg <= r && |r| <= |reg| + 1
    ensures o in reg ==> r == reg
    ensures forall x :: x in r <==> x in reg || x == o
    ensures NoDup(reg) ==> NoDup(r)
  {
    if o in reg then reg else reg + [o]
  }

  /** Reference definition: `s` with every occurrence of `o` dropped, order kept. */
  function Without(s: seq<ObserverId>, o: ObserverId): (r: seq<ObserverId>)
    ensures o !in r
    ensures forall x :: x != o ==> (x in r <==> x in s)
    ensures |r| <= |s|
  {
    if s == [] then []
    else if s[0] == o then Without(s[1..], o)
    else [s[0]] + Without(s[1..], o)
  }

  /** The tail of a duplicate-free list is duplicate-free and lacks the head. */
  lemma NoDupTail(s: seq<ObserverId>)
    requires NoDup(s) && s != []
    ensures NoDup(s[1..]) && s[0] !in s[1..]
  {
  }

  /** Prepending an absent observer keeps a list duplicate-free. */
  lemma NoDupCons(a: ObserverId, t: seq<ObserverId>)
    requires NoDup(t) && a !in t
    ensures NoDup([a] + t)
  {
  }

  /** Dropping an observer that is absent changes nothing. */
  lemma {:induction false} WithoutAbsent(s: seq<ObserverId>, o: ObserverId)
    requires o !in s
    ensures Without(s, o) == s
  {
    if s != [] {
      assert o !in s[1..] by { assert s == [s[0]] + s[1..]; }
      WithoutAbsent(s[1..], o);
      assert [s[0]] + s[1..] == s;
    }
  }

  /**
   * `removeObserver`: `List.remove(Object)` deletes the first occurrence of
   * `o` and leaves the list alone when there is none.
   */
  function Remove(reg: seq<ObserverId>, o: ObserverId): (r: seq<ObserverId>)
    ensures o !in reg ==> r == reg
    ensures o in reg ==> |r| == |reg| - 1
    ensures forall x :: x != o ==> (x in r <==> x in reg)
    ensures NoDup(reg) ==> NoDup(r) && o !in r && r == Without(reg, o)
  {
    if reg == [] then []
    else if reg[0] == o then
      assert NoDup(reg) ==> reg[1..] == Without(reg[1..], o) by {
        if NoDup(reg) {
          NoDupTail(reg);
          WithoutAbsent(reg[1..], o);
        }
      }
      reg[1..]
    else
      var rest := Remove(reg[1..], o);
      assert NoDup(reg) ==> NoDup([reg[0]] + rest) by {
        if NoDup(reg) {
          NoDupTail(reg);
          NoDupCons(reg[0], rest);
        }
      }
      assert o !in reg ==> [reg[0]] + rest == reg by {
        assert reg == [reg[0]] + reg[1..];
      }
      [reg[0]] + rest
  }

  /** Removing an observer just added to a registry that lacked it restores the registry. */
  lemma {:induction false} RemoveUndoesAdd(reg: seq<ObserverId>, o: ObserverId)
    requires o !in reg
    ensures Remove(Add(reg, o), o) == reg
  {
    if reg == [] {
    } else {
      assert (reg + [o])[0] == reg[0];
      assert (reg + [o])[1..] == reg[1..] + [o];
      RemoveUndoesAdd(reg[1..], o);
      assert [reg[0]] + reg[1..] == reg;
    }
  }

  /** A sequence of `addObserver` calls, performed left to right. */
  function AddAll(reg: seq<ObserverId>, os: seq<ObserverId>): seq<ObserverId>
    decreases |os|
  {
    if os == [] then reg else AddAll(Add(reg, os[0]), os[1..])
  }

  /**
   * However often each observer is added, it ends up registered exactly once,
   * and the observers registered before keep their places at the front.
   */
  lemma {:induction false} AddAllRegistersOnce(reg: seq<ObserverId>, os: seq<ObserverId>)
    requires NoDup(reg)
    ensures reg <= AddAll(reg, os)
    ensures NoDup(AddAll(reg, os))
    ensures forall o :: o in os || o in reg ==> Count(AddAll(reg, os), o) == 1
    decreases |os|
  {
    var r := AddAll(reg, os);
    if os != [] {
      AddAllRegistersOnce(Add(reg, os[0]), os[1..]);
      forall o | o in os || o in reg ensures Count(r, o) == 1 {
        if o !in os[1..] {
          assert o in reg || o == os[0] by {
            if o in os { assert os == [os[0]] + os[1..]; }
          }
        }
        CountDistinct(r, o);
      }
    } else {
      forall o | o in reg ensures Count(r, o) == 1 {
        CountDistinct(r, o);
      }
    }
  }

  /** A registry call an observer makes on the sensor it is being notified by. */
  datatype Edit = Subscribe(observer: ObserverId) | Unsubscribe(observer: ObserverId)

  /** Apply registry calls in the order they are made. */
  function ApplyEdits(reg: seq<ObserverId>, edits: seq<Edit>): (r: seq<ObserverId>)
    ensures NoDup(reg) ==> NoDup(r)
    ensures forall x :: x in r ==> x in reg || exists k :: 0 <= k < |edits| && edits[k] == Subscribe(x)
    decreases |edits|
  {
    if edits == [] then reg
    else
      var next := match edits[0]
        case Subscribe(o) => Add(reg, o)
        case Unsubscribe(o) => Remove(reg, o);
      var r := ApplyEdits(next, edits[1..]);
      assert forall x :: x in r ==> x in reg || exists k :: 0 <= k < |edits| && edits[k] == Subscribe(x) by {
        forall x | x in r && x !in reg
          ensures exists k :: 0 <= k < |edits| && edits[k] == Subscribe(x)
        {
          if x in next {
            assert edits[0] == Subscribe(x);
          } else {
            var k :| 0 <= k < |edits[1..]| && edits[1..][k] == Subscribe(x);
            assert edits[k + 1] == Subscribe(x);
          }
        }
      }
      r
  }

  /** Applying two batches of registry calls is applying their concatenation. */
  lemma {:induction false} ApplyEditsAppend(reg: seq<ObserverId>, a: seq<Edit>, b: seq<Edit>)
    ensures ApplyEdits(reg, a + b) == ApplyEdits(ApplyEdits(reg, a), b)
    decreases |a|
  {
    if a != [] {
      assert (a + b)[0] == a[0];
      assert (a + b)[1..] == a[1..] + b;
      var next := match a[0]
        case Subscribe(o) => Add(reg, o)
        case Unsubscribe(o) => Remove(reg, o);
      ApplyEditsAppend(next, a[1..], b);
    } else {
      assert a + b == b;
    }
  }
}

=== FILE: risk.dfy ===
/**
 * The risk analyzer of the investment-profile exercise (RiskAnalyzer): a
 * replaceable scoring strategy, the three-band categorisation of a score,
 * and the result record `analyze` returns.
 */
module Risk {

  /** The client data a strategy scores. */
  datatype Cliente = Cliente(idade: int, rendaAnual: real, horizonteAnos: int, toleranciaRisco: real)

  /** The `Cliente` constructor: the self-reported tolerance is clamped to [0, 100]. */
  function NewCliente(idade: int, rendaAnual: real, horizonteAnos: int, toleranciaRisco: real): (c: Cliente)
    ensures c.idade == idade && c.rendaAnual == rendaAnual && c.horizonteAnos == horizonteAnos
    ensures 0.0 <= c.toleranciaRisco <= 100.0
    ensures 0.0 <= toleranciaRisco <= 100.0 ==> c.toleranciaRisco == toleranciaRisco
    ensures toleranciaRisco < 0.0 ==> c.toleranciaRisco == 0.0
    ensures toleranciaRisco > 100.0 ==> c.toleranciaRisco == 100.0
  {
    var lowered := if toleranciaRisco < 100.0 then toleranciaRisco else 100.0;
    Cliente(idade, rendaAnual, horizonteAnos, if lowered > 0.0 then lowered else 0.0)
  }

  /**
   * A scoring strategy, taken as given: its display name and its scoring
   * function, which the interface documents as landing in [0, 100].
   */
  datatype RiskStrategy = RiskStrategy(name: string, calculateRisk: Cliente -> real)

  /** The strategy keeps the documented promise of a score in [0, 100]. */
  ghost predicate Bounded(st: RiskStrategy) {
    forall c :: 0.0 <= st.calculateRisk(c) <= 100.0
  }

  /** The category names, lowest band first. */
  const BAIXO := "Baixo"
  const MODERADO := "Moderado"
  const ALTO := "Alto"

  /** `categorize`: "Alto" from 66 up, "Moderado" from 33 up, "Baixo" below. */
  function Categorize(score: real): (r: string)
    ensures r == ALTO <==> score >= 66.0
    ensures r == MODERADO <==> 33.0 <= score < 66.0
    ensures r == BAIXO <==> score < 33.0
  {
    if score >= 66.0 then ALTO
    else if score >= 33.0 then MODERADO
    else BAIXO
  }

  /** Position of a category name in the order Baixo < Moderado < Alto. */
  function Rank(category: string): int {
    if category == ALTO then 2 else if category == MODERADO then 1 else 0
  }

  /** A larger score never lands in a lower band. */
  lemma CategorizeMonotone(a: real, b: real)
    requires a <= b
    ensures Rank(Categorize(a)) <= Rank(Categorize(b))
  {
  }

  /** Exactly one band is chosen for every score. */
  lemma CategorizeExactlyOne(score: real)
    ensures Categorize(score) in {BAIXO, MODERADO, ALTO}
    ensures |{BAIXO, MODERADO, ALTO}| == 3
  {
    assert BAIXO != MODERADO && BAIXO != ALTO && MODERADO != ALTO by {
      assert BAIXO[0] != MODERADO[0] && BAIXO[0] != ALTO[0] && MODERADO[0] != ALTO[0];
    }
  }

  /** The record `analyze` returns. */
  datatype Result = Result(modelo: string, score: real, categoria: string)

  datatype RiskAnalyzer = RiskAnalyzer(strategy: RiskStrategy)

  /** `setStrategy`: the strategy is replaced and the analyzer holds nothing else. */
  function SetStrategy(a: RiskAnalyzer, st: RiskStrategy): (r: RiskAnalyzer)
    ensures r.strategy == st
  {
    a.(strategy := st)
  }

  /**
   * `analyze`: the current strategy's name, its score for the client as it
   * is, and the band of that score; with a bounded strategy the score is in
   * [0, 100].
   */
  function Analyze(a: RiskAnalyzer, c: Cliente): (r: Result)
    ensures r.modelo == a.strategy.name
    ensures r.score == a.strategy.calculateRisk(c)
    ensures r.categoria == ALTO <==> r.score >= 66.0
    ensures r.categoria == MODERADO <==> 33.0 <= r.score < 66.0
    ensures r.categoria == BAIXO <==> r.score < 33.0
    ensures Bounded(a.strategy) ==> 0.0 <= r.score <= 100.0
  {
    var score := a.strategy.calculateRisk(c);
    Result(a.strategy.name, score, Categorize(score))
  }

  /** After `setStrategy(st)`, `analyze` answers with `st` alone, whatever the strategy was. */
  lemma AnalyzeUsesNewStrategy(a: RiskAnalyzer, b: RiskAnalyzer, st: RiskStrategy, c: Cliente)
    ensures Analyze(SetStrategy(a, st), c) == Analyze(SetStrategy(b, st), c)
    ensures Analyze(SetStrategy(a, st), c).modelo == st.name
    ensures Analyze(SetStrategy(a, st), c).score == st.calculateRisk(c)
  {
  }
}

=== FILE: sensors.dfy ===
/**
 * The subject of the observer pattern (EnvironmentalMonitoring.Sensor): a
 * sensor with a fixed identity, a current value and an observer registry,
 * and `setValue`, which stores the value and then notifies a copy of the
 * registry taken before any observer runs.
 *
 * Observer objects are threaded explicitly: a map from observer id to the
 * observer's state goes into `setValue` and comes back updated.
 */
module Sensors {
  import opened Registry
  import opened Alerts
  import opened History

  datatype Sensor = Sensor(id: string, region: string, kind: SensorType, value: real, observers: seq<ObserverId>)

  /** The constructor: the given identity, value 0.0, nobody registered. */
  function NewSensor(id: string, region: string, kind: SensorType): (s: Sensor)
    ensures s.id == id && s.region == region && s.kind == kind
    ensures s.value == 0.0 && |s.observers| == 0
  {
    Sensor(id, region, kind, 0.0, [])
  }

  /** `addObserver` on a sensor: only the registry changes. */
  function AddObserver(s: Sensor, o: ObserverId): (r: Sensor)
    ensures r.id == s.id && r.region == s.region && r.kind == s.kind && r.value == s.value
    ensures r.observers == Add(s.observers, o)
  {
    s.(observers := Add(s.observers, o))
  }

  /** `removeObserver` on a sensor: only the registry changes. */
  function RemoveObserver(s: Sensor, o: ObserverId): (r: Sensor)
    ensures r.id == s.id && r.region == s.region && r.kind == s.kind && r.value == s.value
    ensures r.observers == Remove(s.observers, o)
  {
    s.(observers := Remove(s.observers, o))
  }

  /** What an observer learns on `update`: the sensor it came from and the value. */
  datatype Reading = Reading(sensorId: string, region: string, kind: SensorType, value: real)

  /**
   * How another observer's `update` ends: normally, by throwing an
   * `Exception` (which `notifyObservers` catches), or by throwing an `Error`
   * (which it does not catch).
   */
  datatype Fault = Returns | ThrowsException | ThrowsError

  /**
   * The observers. `Panel`, `Alerter` and `Logger` are the three classes of
   * the system; `Foreign` stands for another `SensorObserver` that keeps no
   * state of its own: it makes the same registry calls on the notifying
   * sensor during every `update` and then ends the same way.
   */
  datatype Observer =
    | Panel(name: string)
    | Alerter(unit: AlertModule)
    | Logger(logger: HistoryLogger)
    | Foreign(edits: seq<Edit>, fault: Fault)

  type Observers = map<ObserverId, Observer>

  /** An observer whose `update` throws past the `catch (Exception e)` of the dispatch loop. */
  predicate Escapes(o: Observer) {
    o.Foreign? && o.fault == ThrowsError
  }

  /** What one `update` call did, as far as the model can see it. */
  datatype Reaction =
    | Displayed                     // the panel printed the reading
    | Assessed(decision: Decision)  // the alert module judged it
    | Recorded(entry: Entry)        // the logger appended it
    | Handled(fault: Fault)         // another observer ran, and how it ended

  datatype Reception = Reception(after: Observer, reaction: Reaction)

  /** The registry calls an observer makes while being notified. */
  function ForeignEdits(o: Observer): seq<Edit> {
    if o.Foreign? then o.edits else []
  }

  /** One observer's `update`: its new state and what it did. */
  function Receive(o: Observer, r: Reading): (x: Reception)
    ensures ForeignEdits(x.after) == ForeignEdits(o)
    ensures x.after.Foreign? == o.Foreign? && x.after.Logger? == o.Logger?
    ensures Escapes(x.after) == Escapes(o)
    ensures o.Logger? ==> x.after.logger == Record(o.logger, Entry(r.sensorId, r.value, r.region))
    ensures !o.Logger? ==> x.after == o
    ensures o.Alerter? ==> x.reaction == Assessed(Decide(o.unit, r.kind, r.value))
    ensures o.Foreign? ==> x.reaction == Handled(o.fault)
  {
    match o
    case Panel(_) => Reception(o, Displayed)
    case Alerter(m) => Reception(o, Assessed(Decide(m, r.kind, r.value)))
    case Logger(l) =>
      var e := Entry(r.sensorId, r.value, r.region);
      Reception(Logger(Record(l, e)), Recorded(e))
    case Foreign(_, fault) => Reception(o, Handled(fault))
  }

  /** One call of `update` made while notifying. */
  datatype Delivery = Delivery(observer: ObserverId, value: real, reaction: Reaction)

  /**
   * The sensor, the observers and the deliveries after a notification, and
   * whether an `Error` escaped from the last delivery and out of `setValue`.
   */
  datatype Broadcast = Broadcast(sensor: Sensor, peers: Observers, deliveries: seq<Delivery>, escaped: bool)

  function ReadingOf(s: Sensor): Reading {
    Reading(s.id, s.region, s.kind, s.value)
  }

  /** The ids the deliveries went to, in order. */
  function Recipients(ds: seq<Delivery>): (ids: seq<ObserverId>)
    ensures |ids| == |ds| && forall i :: 0 <= i < |ds| ==> ids[i] == ds[i].observer
  {
    seq(|ds|, i requires 0 <= i < |ds| => ds[i].observer)
  }

  /** Every id in `ids` names an observer. */
  predicate Known(ids: seq<ObserverId>, peers: Observers) {
    forall o :: o in ids ==> o in peers
  }

  /** No observer of `ids` throws an `Error`. */
  predicate NoEscape(ids: seq<ObserverId>, peers: Observers) {
    forall o :: o in ids ==> o in peers && !Escapes(peers[o])
  }

  /**
   * Reference definition: the registry calls made by the observers of
   * `snapshot`, in order, up to and including the first one that throws an `Error`.
   */
  function PendingEdits(snapshot: seq<ObserverId>, peers: Observers): seq<Edit>
    requires Known(snapshot, peers)
  {
    if snapshot == [] then []
    else
      var o := snapshot[0];
      ForeignEdits(peers[o]) + (if Escapes(peers[o]) then [] else PendingEdits(snapshot[1..], peers))
  }

  /** The registry calls depend only on the observers' registry behaviour and faults. */
  lemma {:induction false} PendingEditsFrame(snapshot: seq<ObserverId>, p: Observers, q: Observers)
    requires Known(snapshot, p) && Known(snapshot, q)
    requires forall o :: o in snapshot ==> ForeignEdits(p[o]) == ForeignEdits(q[o]) && Escapes(p[o]) == Escapes(q[o])
    ensures PendingEdits(snapshot, p) == PendingEdits(snapshot, q)
  {
    if snapshot != [] {
      PendingEditsFrame(snapshot[1..], p, q);
    }
  }

  /**
   * `notifyObservers` after the copy: call the observers of `snapshot` in
   * order, re-reading the sensor's value for each call. Registry calls made
   * by an observer change the sensor's registry, not the snapshot. An
   * observer that throws an `Exception` is caught and the loop goes on; one
   * that throws an `Error` ends the loop, and the `Error` leaves `setValue`.
   */
  function Notify(s: Sensor, snapshot: seq<ObserverId>, peers: Observers): (b: Broadcast)
    requires Known(snapshot, peers)
    ensures b.sensor == s.(observers := b.sensor.observers)
    ensures |b.deliveries| <= |snapshot|
    ensures !b.escaped ==> |b.deliveries| == |snapshot|
    ensures forall i :: 0 <= i < |b.deliveries| ==>
      b.deliveries[i].observer == snapshot[i] && b.deliveries[i].value == s.value
    ensures b.peers.Keys == peers.Keys
    ensures forall o :: o in peers ==>
      && ForeignEdits(b.peers[o]) == ForeignEdits(peers[o])
      && b.peers[o].Foreign? == peers[o].Foreign?
      && Escapes(b.peers[o]) == Escapes(peers[o])
    decreases |snapshot|
  {
    if snapshot == [] then Broadcast(s, peers, [], false)
    else
      var o := snapshot[0];
      var rec := Receive(peers[o], ReadingOf(s));
      var s' := s.(observers := ApplyEdits(s.observers, ForeignEdits(peers[o])));
      var d := Delivery(o, s.value, rec.reaction);
      if Escapes(peers[o]) then Broadcast(s', peers[o := rec.after], [d], true)
      else
        var rest := Notify(s', snapshot[1..], peers[o := rec.after]);
        Broadcast(rest.sensor, rest.peers, [d] + rest.deliveries, rest.escaped)
  }

  /**
   * `n` deliveries and the escape flag describe a dispatch over `snapshot`
   * that stops right after the first observer throwing an `Error`: with no
   * such observer every one was called and nothing escaped; otherwise the
   * last call went to the first one of them, and the `Error` escaped.
   */
  predicate CutAtFirstError(n: nat, escaped: bool, snapshot: seq<ObserverId>, peers: Observers) {
    && n <= |snapshot|
    && (!escaped <==> NoEscape(snapshot, peers))
    && (!escaped ==> n == |snapshot|)
    && (escaped ==> 0 < n && snapshot[n - 1] in peers && Escapes(peers[snapshot[n - 1]]) && NoEscape(snapshot[..n - 1], peers))
  }

  /** A notification escapes exactly when some observer of the snapshot throws an `Error`. */
  lemma {:induction false} NotifyEscapes(s: Sensor, snapshot: seq<ObserverId>, peers: Observers)
    requires Known(snapshot, peers)
    ensures !Notify(s, snapshot, peers).escaped <==> NoEscape(snapshot, peers)
    decreases |snapshot|
  {
    if snapshot != [] {
      var o := snapshot[0];
      if !Escapes(peers[o]) {
        var rec := Receive(peers[o], ReadingOf(s));
        var s' := s.(observers := ApplyEdits(s.observers, ForeignEdits(peers[o])));
        var peers' := peers[o := rec.after];
        NotifyEscapes(s', snapshot[1..], peers');
        assert Notify(s, snapshot, peers).escaped == Notify(s', snapshot[1..], peers').escaped;
        NoEscapeFrame(snapshot[1..], peers', peers);
        NoEscapeCons(snapshot, peers);
      }
    }
  }

  /** A notification whose first observer lets no `Error` out goes on with the rest of the snapshot. */
  lemma NotifyCons(s: Sensor, snapshot: seq<ObserverId>, peers: Observers)
    requires Known(snapshot, peers) && snapshot != [] && !Escapes(peers[snapshot[0]])
    ensures var o := snapshot[0];
      var rec := Receive(peers[o], ReadingOf(s));
      var rest := Notify(s.(observers := ApplyEdits(s.observers, ForeignEdits(peers[o]))), snapshot[1..], peers[o := rec.after]);
      Notify(s, snapshot, peers) == Broadcast(rest.sensor, rest.peers, [Delivery(o, s.value, rec.reaction)] + rest.deliveries, rest.escaped)
  {
  }

  /** The first `Error` in the tail of a snapshot, one place further on in the whole snapshot. */
  lemma FirstErrorCons(snapshot: seq<ObserverId>, peers: Observers, peers': Observers, k: nat)
    requires Known(snapshot, peers) && snapshot != [] && !Escapes(peers[snapshot[0]])
    requires peers'.Keys == peers.Keys && forall x :: x in peers ==> Escapes(peers'[x]) == Escapes(peers[x])
    requires 0 < k < |snapshot|
    requires Escapes(peers'[snapshot[1..][k - 1]]) && NoEscape(snapshot[1..][..k - 1], peers')
    ensures Escapes(peers[snapshot[k]]) && NoEscape(snapshot[..k], peers)
  {
    assert snapshot[1..][k - 1] == snapshot[k];
    var pre := snapshot[1..][..k - 1];
    assert snapshot[..k] == [snapshot[0]] + pre;
    forall x | x in snapshot[..k] ensures x in peers && !Escapes(peers[x]) {
      if x != snapshot[0] {
        assert x in pre;
      }
    }
  }

  /** When an `Error` escapes, the last delivery went to the first observer that throws one. */
  lemma {:induction false} NotifyErrorIsLast(s: Sensor, snapshot: seq<ObserverId>, peers: Observers)
    requires Known(snapshot, peers)
    ensures var b := Notify(s, snapshot, peers);
      b.escaped ==> && 0 < |b.deliveries|
                    && Escapes(peers[snapshot[|b.deliveries| - 1]])
                    && NoEscape(snapshot[..|b.deliveries| - 1], peers)
    decreases |snapshot|
  {
    if snapshot != [] {
      var o := snapshot[0];
      if Escapes(peers[o]) {
        assert snapshot[..0] == [];
      } else {
        var rec := Receive(peers[o], ReadingOf(s));
        var s' := s.(observers := ApplyEdits(s.observers, ForeignEdits(peers[o])));
        var peers' := peers[o := rec.after];
        var rest := Notify(s', snapshot[1..], peers');
        NotifyCons(s, snapshot, peers);
        NotifyErrorIsLast(s', snapshot[1..], peers');
        if rest.escaped {
          FirstErrorCons(snapshot, peers, peers', |rest.deliveries|);
        }
      }
    }
  }

  /** Whether the observers of `ids` escape depends only on their faults. */
  lemma NoEscapeFrame(ids: seq<ObserverId>, p: Observers, q: Observers)
    requires Known(ids, p) && p.Keys == q.Keys
    requires forall x :: x in p ==> Escapes(p[x]) == Escapes(q[x])
    ensures NoEscape(ids, p) <==> NoEscape(ids, q)
  {
  }

  lemma NoEscapeCons(ids: seq<ObserverId>, peers: Observers)
    requires ids != [] && Known(ids, peers)
    ensures NoEscape(ids, peers) <==> !Escapes(peers[ids[0]]) && NoEscape(ids[1..], peers)
  {
    assert forall x :: x in ids <==> x == ids[0] || x in ids[1..] by {
      assert ids == [ids[0]] + ids[1..];
    }
  }

  /** Both halves together, as one fact about the dispatch. */
  lemma NotifyStopsAtError(s: Sensor, snapshot: seq<ObserverId>, peers: Observers)
    requires Known(snapshot, peers)
    ensures var b := Notify(s, snapshot, peers);
      CutAtFirstError(|b.deliveries|, b.escaped, snapshot, peers)
  {
    NotifyEscapes(s, snapshot, peers);
    NotifyErrorIsLast(s, snapshot, peers);
  }

  /**
   * The registry after a notification is the registry before it with the
   * observers' registry calls applied in delivery order.
   */
  lemma {:induction false} NotifyRegistry(s: Sensor, snapshot: seq<ObserverId>, peers: Observers)
    requires Known(snapshot, peers)
    ensures Notify(s, snapshot, peers).sensor.observers == ApplyEdits(s.observers, PendingEdits(snapshot, peers))
    decreases |snapshot|
  {
    if snapshot != [] {
      var o := snapshot[0];
      var rec := Receive(peers[o], ReadingOf(s));
      var s' := s.(observers := ApplyEdits(s.observers, ForeignEdits(peers[o])));
      var peers' := peers[o := rec.after];
      if Escapes(peers[o]) {
        assert PendingEdits(snapshot, peers) == ForeignEdits(peers[o]) + [];
        assert ForeignEdits(peers[o]) + [] == ForeignEdits(peers[o]);
      } else {
        NotifyRegistry(s', snapshot[1..], peers');
        PendingEditsFrame(snapshot[1..], peers', peers);
        ApplyEditsAppend(s.observers, ForeignEdits(peers[o]), PendingEdits(snapshot[1..], peers));
      }
    } else {
      assert PendingEdits(snapshot, peers) == [];
    }
  }

  /** The ids a notification reached are a prefix of its snapshot. */
  lemma NotifyRecipients(s: Sensor, snapshot: seq<ObserverId>, peers: Observers)
    requires Known(snapshot, peers)
    ensures var b := Notify(s, snapshot, peers);
      Recipients(b.deliveries) == snapshot[..|b.deliveries|]
  {
  }

  lemma RecipientsCons(d: Delivery, ds: seq<Delivery>)
    ensures Recipients([d] + ds) == [d.observer] + Recipients(ds)
  {
    assert forall i :: 0 < i <= |ds| ==> ([d] + ds)[i] == ds[i - 1];
  }

  /** One `update` step of the first observer, then the rest's, as one map. */
  lemma PeersCons(o: ObserverId, after: Observer, peers: Observers, later: Observers, reached: seq<ObserverId>, step: Observer -> Observer)
    requires o in peers && o !in reached && step(peers[o]) == after
    requires later.Keys == peers.Keys
    requires forall x :: x in peers ==> later[x] == (if x in reached then step(peers[o := after][x]) else peers[o := after][x])
    ensures forall x :: x in peers ==> later[x] == (if x in [o] + reached then step(peers[x]) else peers[x])
  {
  }

  /**
   * With no observer twice in the snapshot, each observer that was called has
   * taken exactly one `update` step, and every other observer is untouched.
   */
  lemma {:induction false} NotifyPeers(s: Sensor, snapshot: seq<ObserverId>, peers: Observers)
    requires Known(snapshot, peers) && NoDup(snapshot)
    ensures var b := Notify(s, snapshot, peers);
      forall o :: o in peers ==>
        b.peers[o] == (if o in Recipients(b.deliveries) then Receive(peers[o], ReadingOf(s)).after else peers[o])
    decreases |snapshot|
  {
    if snapshot != [] {
      var o := snapshot[0];
      var rec := Receive(peers[o], ReadingOf(s));
      var s' := s.(observers := ApplyEdits(s.observers, ForeignEdits(peers[o])));
      var peers' := peers[o := rec.after];
      var b := Notify(s, snapshot, peers);
      if Escapes(peers[o]) {
        assert Recipients(b.deliveries) == [o];
      } else {
        var rest := Notify(s', snapshot[1..], peers');
        NotifyCons(s, snapshot, peers);
        NoDupTail(snapshot);
        NotifyPeers(s', snapshot[1..], peers');
        NotifyRecipients(s', snapshot[1..], peers');
        RecipientsCons(Delivery(o, s.value, rec.reaction), rest.deliveries);
        assert ReadingOf(s') == ReadingOf(s);
        var step := (x: Observer) => Receive(x, ReadingOf(s)).after;
        PeersCons(o, rec.after, peers, rest.peers, Recipients(rest.deliveries), step);
      }
    }
  }

  /**
   * With no observer twice in the snapshot, each delivery's reaction is the
   * one its observer's state before the notification produces.
   */
  lemma {:induction false} NotifyReactions(s: Sensor, snapshot: seq<ObserverId>, peers: Observers)
    requires Known(snapshot, peers) && NoDup(snapshot)
    ensures var b := Notify(s, snapshot, peers);
      forall i :: 0 <= i < |b.deliveries| ==>
        b.deliveries[i].reaction == Receive(peers[snapshot[i]], ReadingOf(s)).reaction
    decreases |snapshot|
  {
    if snapshot != [] {
      var o := snapshot[0];
      var rec := Receive(peers[o], ReadingOf(s));
      var s' := s.(observers := ApplyEdits(s.observers, ForeignEdits(peers[o])));
      var peers' := peers[o := rec.after];
      var b := Notify(s, snapshot, peers);
      if !Escapes(peers[o]) {
        NoDupTail(snapshot);
        NotifyReactions(s', snapshot[1..], peers');
        assert ReadingOf(s') == ReadingOf(s);
        var rest := Notify(s', snapshot[1..], peers');
        forall i | 0 <= i < |b.deliveries|
          ensures b.deliveries[i].reaction == Receive(peers[snapshot[i]], ReadingOf(s)).reaction
        {
          if i > 0 {
            assert b.deliveries[i] == rest.deliveries[i - 1];
            assert snapshot[1..][i - 1] == snapshot[i];
            assert snapshot[i] != o;
          }
        }
      }
    }
  }

  /** Every registered id names an observer. */
  predicate Attached(s: Sensor, peers: Observers) {
    Known(s.observers, peers)
  }

  /** Every registry call an observer may make names an observer. */
  predicate EditsKnown(edits: seq<Edit>, peers: Observers) {
    forall k :: 0 <= k < |edits| ==> edits[k].observer in peers
  }

  /** The sensor and its observers form a closed world. */
  predicate Wired(s: Sensor, peers: Observers) {
    && Attached(s, peers)
    && forall o :: o in peers ==> EditsKnown(ForeignEdits(peers[o]), peers)
  }

  lemma {:induction false} PendingEditsKnown(snapshot: seq<ObserverId>, peers: Observers)
    requires Known(snapshot, peers)
    requires forall o :: o in peers ==> EditsKnown(ForeignEdits(peers[o]), peers)
    ensures EditsKnown(PendingEdits(snapshot, peers), peers)
  {
    if snapshot != [] {
      PendingEditsKnown(snapshot[1..], peers);
      var o := snapshot[0];
      var a: seq<Edit> := ForeignEdits(peers[o]);
      var rest: seq<Edit> := if Escapes(peers[o]) then [] else PendingEdits(snapshot[1..], peers);
      forall k | 0 <= k < |a + rest| ensures (a + rest)[k].observer in peers {
        if k < |a| { assert (a + rest)[k] == a[k]; } else { assert (a + rest)[k] == rest[k - |a|]; }
      }
    }
  }

  /**
   * `setValue`: store the value, copy the registry, and deliver the stored
   * value to the observers of the copy in registry order, once each, whatever
   * the observers do to the registry meanwhile. An `Exception` from an
   * observer does not stop the delivery; an `Error` stops it right after the
   * observer that threw, and leaves `setValue` with the value already stored.
   * The registry afterwards is the old one with the registry calls of the
   * observers that were called applied in delivery order.
   */
  function SetValue(s: Sensor, v: real, peers: Observers): (b: Broadcast)
    requires Attached(s, peers)
    ensures b.sensor.value == v
    ensures b.sensor.id == s.id && b.sensor.region == s.region && b.sensor.kind == s.kind
    ensures |b.deliveries| <= |s.observers|
    ensures forall i :: 0 <= i < |b.deliveries| ==>
      b.deliveries[i].observer == s.observers[i] && b.deliveries[i].value == v
    ensures CutAtFirstError(|b.deliveries|, b.escaped, s.observers, peers)
    ensures b.sensor.observers == ApplyEdits(s.observers, PendingEdits(s.observers, peers))
    ensures NoDup(s.observers) ==> NoDup(b.sensor.observers)
    ensures Wired(s, peers) ==> Wired(b.sensor, b.peers)
    ensures b.peers.Keys == peers.Keys
    ensures forall o :: o in peers ==> b.peers[o].Foreign? == peers[o].Foreign?
    ensures forall o :: o in peers ==>
      ForeignEdits(b.peers[o]) == ForeignEdits(peers[o]) && Escapes(b.peers[o]) == Escapes(peers[o])
  {
    var s1 := s.(value := v);
    var b := Notify(s1, s1.observers, peers);
    NotifyRegistry(s1, s1.observers, peers);
    NotifyStopsAtError(s1, s1.observers, peers);
    assert Wired(s, peers) ==> Wired(b.sensor, b.peers) by {
      if Wired(s, peers) {
        PendingEditsKnown(s.observers, peers);
        var pending := PendingEdits(s.observers, peers);
        forall x | x in b.sensor.observers ensures x in b.peers {
          if x !in s.observers {
            var k :| 0 <= k < |pending| && pending[k] == Subscribe(x);
            assert pending[k].observer == x;
          }
        }
      }
    }
    b
  }

  /**
   * What `setValue` does to the observers: with a duplicate-free registry each
   * observer that was called took exactly one `update` step on the new value
   * (a logger gains one entry) and every other observer is untouched; each
   * delivery's reaction is its observer's response to the new reading.
   */
  lemma SetValueObservers(s: Sensor, v: real, peers: Observers)
    requires Attached(s, peers) && NoDup(s.observers)
    ensures var b := SetValue(s, v, peers);
      forall o :: o in peers ==>
        b.peers[o] ==
          (if o in Recipients(b.deliveries) then Receive(peers[o], Reading(s.id, s.region, s.kind, v)).after else peers[o])
    ensures var b := SetValue(s, v, peers);
      forall i :: 0 <= i < |b.deliveries| ==>
        b.deliveries[i].reaction == Receive(peers[s.observers[i]], Reading(s.id, s.region, s.kind, v)).reaction
  {
    var s1 := s.(value := v);
    NotifyPeers(s1, s1.observers, peers);
    NotifyReactions(s1, s1.observers, peers);
  }

  /**
   * A logger registered once on the sensor gains exactly one entry from
   * `setValue` (the sensor's id, the new value, its region), appended after
   * its earlier entries, unless an `Error` stopped the delivery before it.
   */
  lemma SetValueLogsOnce(s: Sensor, v: real, peers: Observers, h: ObserverId)
    requires Attached(s, peers) && NoDup(s.observers)
    requires h in s.observers && peers[h].Logger?
    ensures var b := SetValue(s, v, peers);
      b.peers[h] == (if h in Recipients(b.deliveries) then Logger(Record(peers[h].logger, Entry(s.id, v, s.region))) else peers[h])
    ensures NoEscape(s.observers, peers) ==>
      SetValue(s, v, peers).peers[h] == Logger(Record(peers[h].logger, Entry(s.id, v, s.region)))
  {
    SetValueObservers(s, v, peers);
    var b := SetValue(s, v, peers);
    if NoEscape(s.observers, peers) {
      assert Recipients(b.deliveries) == s.observers;
    }
  }

  /** The ids `setValue` reached are a prefix of the registry. */
  lemma SetValueRecipients(s: Sensor, v: real, peers: Observers)
    requires Attached(s, peers)
    ensures var b := SetValue(s, v, peers);
      Recipients(b.deliveries) == s.observers[..|b.deliveries|]
  {
  }

  /**
   * Each registered observer up to the one that threw an `Error`, if any, gets
   * exactly one delivery; nobody else gets any. With no `Error`, that is every
   * registered observer.
   */
  lemma DeliveredExactlyOnce(s: Sensor, v: real, peers: Observers, o: ObserverId)
    requires Attached(s, peers) && NoDup(s.observers)
    ensures var b := SetValue(s, v, peers);
      Count(Recipients(b.deliveries), o) == (if o in s.observers[..|b.deliveries|] then 1 else 0)
    ensures NoEscape(s.observers, peers) ==>
      Count(Recipients(SetValue(s, v, peers).deliveries), o) == (if o in s.observers then 1 else 0)
  {
    var b := SetValue(s, v, peers);
    var k := |b.deliveries|;
    SetValueRecipients(s, v, peers);
    NoDupPrefix(s.observers, k);
    CountDistinct(s.observers[..k], o);
    if NoEscape(s.observers, peers) {
      assert CutAtFirstError(k, b.escaped, s.observers, peers);
      assert s.observers[..k] == s.observers;
    }
  }

  lemma NoDupPrefix(s: seq<ObserverId>, k: nat)
    requires NoDup(s) && k <= |s|
    ensures NoDup(s[..k])
  {
  }

  /** `setValue` calls only registered observers. */
  lemma SetValueOnlyRegistered(s: Sensor, v: real, peers: Observers)
    requires Attached(s, peers)
    ensures forall d :: d in SetValue(s, v, peers).deliveries ==> d.observer in s.observers
  {
    var ds := SetValue(s, v, peers).deliveries;
    forall d | d in ds ensures d.observer in s.observers {
      var i :| 0 <= i < |ds| && ds[i] == d;
      assert s.observers[i] == d.observer;
    }
  }

  /** With no `Error` thrown, `setValue` delivers the new value to every registered observer. */
  lemma SetValueReachesAll(s: Sensor, v: real, peers: Observers)
    requires Attached(s, peers) && NoEscape(s.observers, peers)
    ensures forall p :: p in s.observers ==>
      exists d :: d in SetValue(s, v, peers).deliveries && d == Delivery(p, v, d.reaction)
  {
    var b := SetValue(s, v, peers);
    assert CutAtFirstError(|b.deliveries|, b.escaped, s.observers, peers);
    forall p | p in s.observers
      ensures exists d :: d in b.deliveries && d == Delivery(p, v, d.reaction)
    {
      var i :| 0 <= i < |s.observers| && s.observers[i] == p;
      assert b.deliveries[i] in b.deliveries;
    }
  }

  /**
   * After `addObserver(o)` then `removeObserver(o)`, a further `setValue`
   * never reaches `o`, while every other registered observer still gets the
   * value when none of them throws an `Error`.
   */
  lemma UnsubscribedObserverIsSkipped(s: Sensor, o: ObserverId, v: real, peers: Observers)
    requires Attached(s, peers) && NoDup(s.observers)
    ensures Attached(RemoveObserver(AddObserver(s, o), o), peers)
    ensures forall d :: d in SetValue(RemoveObserver(AddObserver(s, o), o), v, peers).deliveries ==> d.observer != o
    ensures NoEscape(s.observers, peers) ==> forall p :: p in s.observers && p != o ==>
      exists d :: d in SetValue(RemoveObserver(AddObserver(s, o), o), v, peers).deliveries && d == Delivery(p, v, d.reaction)
  {
    var s2 := RemoveObserver(AddObserver(s, o), o);
    assert o !in s2.observers;
    assert forall x :: x in s2.observers ==> x in s.observers;
    SetValueOnlyRegistered(s2, v, peers);
    if NoEscape(s.observers, peers) {
      assert NoEscape(s2.observers, peers);
      SetValueReachesAll(s2, v, peers);
    }
  }

  /** The log entries a logger makes for a run of readings of `s`. */
  function EntriesFor(s: Sensor, values: seq<real>): (es: seq<Entry>)
    ensures |es| == |values|
    decreases |values|
  {
    if values == [] then [] else [Entry(s.id, values[0], s.region)] + EntriesFor(s, values[1..])
  }

  /**
   * The state after a run of `setValue` calls, each call's deliveries, and
   * whether the run was cut short by an `Error` leaving the last call.
   */
  datatype Trace = Trace(sensor: Sensor, peers: Observers, rounds: seq<seq<Delivery>>, halted: bool)

  /** The last delivery of the last round went to an observer that throws an `Error`. */
  predicate EndsAtError(rounds: seq<seq<Delivery>>, peers: Observers) {
    && 0 < |rounds|
    && var last := rounds[|rounds| - 1];
       0 < |last| && last[|last| - 1].observer in peers && Escapes(peers[last[|last| - 1].observer])
  }

  lemma EndsAtErrorCons(first: seq<Delivery>, later: seq<seq<Delivery>>, p: Observers, q: Observers)
    requires p.Keys == q.Keys && forall o :: o in p ==> Escapes(p[o]) == Escapes(q[o])
    ensures EndsAtError(later, p) ==> EndsAtError([first] + later, q)
  {
    if EndsAtError(later, p) {
      assert ([first] + later)[|later|] == later[|later| - 1];
    }
  }

  /**
   * `setValue` called once per value, in order, by a caller that does not
   * catch an `Error`: the first call an `Error` escapes from is the last one made.
   */
  function Replay(s: Sensor, values: seq<real>, peers: Observers): (t: Trace)
    requires Wired(s, peers)
    ensures Wired(t.sensor, t.peers)
    ensures t.sensor.id == s.id && t.sensor.region == s.region && t.sensor.kind == s.kind
    ensures t.peers.Keys == peers.Keys
    ensures |t.rounds| <= |values|
    ensures !t.halted ==> |t.rounds| == |values|
    ensures t.halted ==> 0 < |t.rounds|
    ensures forall o :: o in peers ==> Escapes(t.peers[o]) == Escapes(peers[o])
    ensures (forall o :: o in peers ==> !Escapes(peers[o])) ==> !t.halted
    decreases |values|
  {
    if values == [] then Trace(s, peers, [], false)
    else
      var b := SetValue(s, values[0], peers);
      assert (forall o :: o in peers ==> !Escapes(peers[o])) ==> NoEscape(s.observers, peers);
      if b.escaped then Trace(b.sensor, b.peers, [b.deliveries], true)
      else
        var rest := Replay(b.sensor, values[1..], b.peers);
        Trace(rest.sensor, rest.peers, [b.deliveries] + rest.rounds, rest.halted)
  }

  /** A call that lets no `Error` out is followed by the rest of the run. */
  lemma ReplayStep(s: Sensor, values: seq<real>, peers: Observers)
    requires Wired(s, peers) && values != [] && !SetValue(s, values[0], peers).escaped
    ensures var b := SetValue(s, values[0], peers);
      var rest := Replay(b.sensor, values[1..], b.peers);
      Replay(s, values, peers) == Trace(rest.sensor, rest.peers, [b.deliveries] + rest.rounds, rest.halted)
  {
  }

  /**
   * A run that halts was halted by an `Error`: the last call's last delivery
   * went to an observer that throws one.
   */
  lemma {:induction false} ReplayHaltsAtError(s: Sensor, values: seq<real>, peers: Observers)
    requires Wired(s, peers)
    ensures Replay(s, values, peers).halted ==> EndsAtError(Replay(s, values, peers).rounds, peers)
    decreases |values|
  {
    if values != [] {
      var b := SetValue(s, values[0], peers);
      if b.escaped {
        assert CutAtFirstError(|b.deliveries|, b.escaped, s.observers, peers);
        assert b.deliveries[|b.deliveries| - 1].observer == s.observers[|b.deliveries| - 1];
        assert Replay(s, values, peers).rounds == [b.deliveries];
      } else {
        ReplayStep(s, values, peers);
        ReplayHaltsAtError(b.sensor, values[1..], b.peers);
        EndsAtErrorCons(b.deliveries, Replay(b.sensor, values[1..], b.peers).rounds, b.peers, peers);
      }
    }
  }

  /**
   * No registered observer makes registry calls or throws an `Error`; an
   * `Exception`, which the dispatch loop catches, is allowed.
   */
  predicate Steady(s: Sensor, peers: Observers) {
    forall o :: o in s.observers ==> o in peers && ForeignEdits(peers[o]) == [] && !Escapes(peers[o])
  }

  lemma {:induction false} SteadyMakesNoEdits(snapshot: seq<ObserverId>, peers: Observers)
    requires forall o :: o in snapshot ==> o in peers && ForeignEdits(peers[o]) == []
    ensures PendingEdits(snapshot, peers) == []
  {
    if snapshot != [] {
      SteadyMakesNoEdits(snapshot[1..], peers);
    }
  }

  /** One `setValue` keeps a steady registry as it is, and lets no `Error` out. */
  lemma SteadyStep(s: Sensor, v: real, peers: Observers)
    requires Wired(s, peers) && NoDup(s.observers) && Steady(s, peers)
    ensures !SetValue(s, v, peers).escaped
    ensures SetValue(s, v, peers).sensor.observers == s.observers
    ensures Steady(SetValue(s, v, peers).sensor, SetValue(s, v, peers).peers)
  {
    SteadyMakesNoEdits(s.observers, peers);
  }

  /**
   * When no registered observer makes registry calls or throws an `Error`,
   * N calls of `setValue` all run, leave the registry as it was and the
   * sensor holding the last value.
   */
  lemma {:induction false} SteadyReplayState(s: Sensor, values: seq<real>, peers: Observers)
    requires Wired(s, peers) && NoDup(s.observers) && Steady(s, peers)
    ensures !Replay(s, values, peers).halted
    ensures Replay(s, values, peers).sensor.observers == s.observers
    ensures values != [] ==> Replay(s, values, peers).sensor.value == values[|values| - 1]
    decreases |values|
  {
    if values != [] {
      var b := SetValue(s, values[0], peers);
      SteadyStep(s, values[0], peers);
      ReplayStep(s, values, peers);
      SteadyReplayState(b.sensor, values[1..], b.peers);
      if |values| > 1 {
        assert values[1..][|values[1..]| - 1] == values[|values| - 1];
      }
    }
  }

  /** One call's deliveries: the value `v` to each of `reg`, in order. */
  predicate RoundOf(ds: seq<Delivery>, reg: seq<ObserverId>, v: real) {
    |ds| == |reg| && forall j :: 0 <= j < |reg| ==> ds[j].observer == reg[j] && ds[j].value == v
  }

  /** One call on a steady sensor delivers the value to every observer, in registry order. */
  lemma SteadyRound(s: Sensor, v: real, peers: Observers)
    requires Wired(s, peers) && NoDup(s.observers) && Steady(s, peers)
    ensures RoundOf(SetValue(s, v, peers).deliveries, s.observers, v)
  {
    SteadyStep(s, v, peers);
  }

  /** Rounds for a run of values, built from the first round and the rounds of the rest. */
  lemma RoundsCons(rounds: seq<seq<Delivery>>, later: seq<seq<Delivery>>, reg: seq<ObserverId>, values: seq<real>)
    requires values != [] && |rounds| == |values| && rounds[1..] == later
    requires RoundOf(rounds[0], reg, values[0])
    requires forall i :: 0 <= i < |later| ==> RoundOf(later[i], reg, values[1..][i])
    ensures forall i :: 0 <= i < |values| ==> RoundOf(rounds[i], reg, values[i])
  {
    forall i | 1 <= i < |values| ensures RoundOf(rounds[i], reg, values[i]) {
      assert rounds[i] == later[i - 1];
      assert values[1..][i - 1] == values[i];
    }
  }

  /**
   * When no registered observer makes registry calls or throws an `Error`,
   * N calls of `setValue` deliver each call's value to every observer once
   * per call, in registry order.
   */
  lemma {:induction false} SteadyReplayRounds(s: Sensor, values: seq<real>, peers: Observers)
    requires Wired(s, peers) && NoDup(s.observers) && Steady(s, peers)
    ensures |Replay(s, values, peers).rounds| == |values|
    ensures forall i :: 0 <= i < |values| ==> RoundOf(Replay(s, values, peers).rounds[i], s.observers, values[i])
    decreases |values|
  {
    if values != [] {
      var b := SetValue(s, values[0], peers);
      SteadyStep(s, values[0], peers);
      SteadyRound(s, values[0], peers);
      ReplayStep(s, values, peers);
      SteadyReplayRounds(b.sensor, values[1..], b.peers);
      var later := Replay(b.sensor, values[1..], b.peers).rounds;
      RoundsCons(Replay(s, values, peers).rounds, later, s.observers, values);
    }
  }

  /**
   * When no registered observer makes registry calls or throws an `Error`, a
   * registered logger ends up with exactly one new entry per `setValue` call,
   * in call order, after its earlier entries.
   */
  lemma {:induction false} SteadyReplayLog(s: Sensor, values: seq<real>, peers: Observers, h: ObserverId)
    requires Wired(s, peers) && NoDup(s.observers) && Steady(s, peers)
    requires h in s.observers && peers[h].Logger?
    ensures Replay(s, values, peers).peers[h].Logger?
    ensures Replay(s, values, peers).peers[h].logger.history == peers[h].logger.history + EntriesFor(s, values)
    decreases |values|
  {
    if values == [] {
      assert peers[h].logger.history + [] == peers[h].logger.history;
    } else {
      var b := SetValue(s, values[0], peers);
      SteadyStep(s, values[0], peers);
      ReplayStep(s, values, peers);
      SteadyMakesNoEdits(s.observers, peers);
      SetValueLogsOnce(s, values[0], peers, h);
      var e := Entry(s.id, values[0], s.region);
      SteadyReplayLog(b.sensor, values[1..], b.peers, h);
      EntriesForIdentity(b.sensor, s, values[1..]);
      assert EntriesFor(s, values) == [e] + EntriesFor(s, values[1..]);
      AppendAssoc(peers[h].logger.history, e, EntriesFor(s, values[1..]));
    }
  }

  lemma AppendAssoc(earlier: seq<Entry>, e: Entry, later: seq<Entry>)
    ensures (earlier + [e]) + later == earlier + ([e] + later)
  {
  }

  /** The entries depend only on the sensor's id and region. */
  lemma {:induction false} EntriesForIdentity(a: Sensor, b: Sensor, values: seq<real>)
    requires a.id == b.id && a.region == b.region
    ensures EntriesFor(a, values) == EntriesFor(b, values)
    decreases |values|
  {
    if values != [] {
      EntriesForIdentity(a, b, values[1..]);
    }
  }

  /**
   * A logger alone on a new sensor records every reading of a run, in order:
   * its history is exactly the entries for the values set.
   */
  lemma LoneLoggerRecordsEveryReading(id: string, region: string, kind: SensorType, name: string, values: seq<real>)
    ensures Wired(AddObserver(NewSensor(id, region, kind), 0), map[0 := Logger(NewHistoryLogger(name))])
    ensures var t := Replay(AddObserver(NewSensor(id, region, kind), 0), values, map[0 := Logger(NewHistoryLogger(name))]);
      t.peers[0].Logger? && t.peers[0].logger.history == EntriesFor(NewSensor(id, region, kind), values)
  {
    var s := AddObserver(NewSensor(id, region, kind), 0);
    var peers := map[0 := Logger(NewHistoryLogger(name))];
    assert s.observers == [0];
    assert Wired(s, peers) && NoDup(s.observers) && Steady(s, peers);
    SteadyReplayLog(s, values, peers, 0);
    EntriesForIdentity(s, NewSensor(id, region, kind), values);
    assert peers[0].logger.history + EntriesFor(s, values) == EntriesFor(s, values);
  }

  /** Three readings make three entries, in the order the values were set. */
  lemma EntriesForThree(s: Sensor, x: real, y: real, z: real)
    ensures EntriesFor(s, [x, y, z]) == [Entry(s.id, x, s.region), Entry(s.id, y, s.region), Entry(s.id, z, s.region)]
  {
    var vs := [x, y, z];
    assert vs[1..] == [y, z] && vs[1..][1..] == [z] && vs[1..][1..][1..] == [];
    assert EntriesFor(s, [z]) == [Entry(s.id, z, s.region)] + EntriesFor(s, []);
    assert EntriesFor(s, [y, z]) == [Entry(s.id, y, s.region)] + EntriesFor(s, [z]);
  }

  /**
   * A logger on a temperature sensor that is set to three values in turn
   * holds exactly three entries, in that order.
   */
  lemma HistoryOfThreeReadings(id: string, region: string, name: string, x: real, y: real, z: real)
    ensures var t := Replay(AddObserver(NewSensor(id, region, Temperature), 0), [x, y, z],
                            map[0 := Logger(NewHistoryLogger(name))]);
      t.peers[0].Logger? && t.peers[0].logger.history == [Entry(id, x, region), Entry(id, y, region), Entry(id, z, region)]
  {
    LoneLoggerRecordsEveryReading(id, region, Temperature, name, [x, y, z]);
    EntriesForThree(NewSensor(id, region, Temperature), x, y, z);
  }
}

=== FILE: wrappers.dfy ===
/** The optional value used wherever the Java code uses a nullable reference. */
module Wrappers {

  datatype Option<+T> = None | Some(value: T)
}
